=== FILE: README.md ===
# NVMe core with multipath: a Dafny model

This project models the decision logic of `core.c`. That file is the controller core of an NVMe block driver that carries its own multipath layer. A multipath group is a root namespace plus its member namespaces, one per controller that can reach the volume. Each locked region of the driver is modelled as one atomic step over immutable records. The model has six parts:

- **Controller lifecycle** (`ctrl_state.dfy`): the six-state check-and-set, reset, scan gating and the state names.
- **Completion and retry policy** (`completion.dfy`): the status-to-block-status mapping, the retry predicate, requeue versus end, cancellation, the reset of the retry counter on first preparation, and the synchronous-command result convention.
- **Multipath I/O and failover**:
  - `mpath_group.dfy` holds the group record. It has the root's flags, `cleanup_done`, the ordered members, the congestion queue `fq_cong`, the wait-entry flag, a context-pool counter, and logs of dispatched and completed bios.
  - `mpath_io.dfy` holds routing, the end-of-I/O callback, resubmission, cancellation, the delayed cleanup work, the resubmission thread's guard and the removal guard.
  - `mpath_invariants.dfy` proves that the group invariant is preserved and that bios are conserved.
  - `failover.dfy` holds the failover trigger, the activation update and the activation completion.
- **Namespace registry** (`registry.dfy`): the sorted lookup, the reconciliation done by the list scan and the sequential scan, the scan work and the final sort.
- **Asynchronous event budget** (`async_events.dfy`).
- **Field encoders and arithmetic**:
  - `encoders.dfy`: Get Log Page dword 10, Number of Queues, user I/O validation and write streams.
  - `reservations.dfy`: the reservation commands.
  - `quirks.dfy`: identify-string quirk matching.
  - `ns_descs.dfy`: the namespace identification descriptor parser.
  - `apst.dfy`: the Autonomous Power State Transition table.
  - `geometry.dfy`: capacity and queue limits.

Status code values are those of the Linux `nvme.h` header, which is not part of this model; for example, ONCS Not Supported is 0x183. Their layout and the Do Not Retry bit follow section 4.6.1 of the NVM Express Base Specification 1.3. Other command fields follow the same standard. Get Log Page is section 5.14, Identify is section 5.15, and Number of Queues is section 5.21.1.7. Reservations are sections 6.10 to 6.12. Module parameters and build-time values (`nvme_max_retries`, `ns_failover_interval`, `HZ`, `nvme_io_timeout`, `NVME_NR_AERS`) are fields of a `Config` record.

Where the code is easy to misread, the model follows what it does:

- `nvme_change_ctrl_state` refuses New to Deleting. Only Live, Resetting and Reconnecting may move to Deleting.
- `nvme_complete_rq` does not look at whether the queue is dying. A dying queue matters only through the Do Not Retry bit that `nvme_cancel_request` sets.
- `nvme_update_active` only sends the activation command. The member becomes active later, in `nvme_ns_active_end_io`, and only if the command succeeds.
- `nvme_scan_ns_list` rounds the page count up in 32-bit arithmetic. A count above 0xFFFFFC00 gives no pages, so every namespace is removed and no sequential scan follows.

## Model

| member | source | states |
|---|---|---|
| CtrlState.ChangeState | core.c:222-293 | the state changes, and the call reports a change, exactly on the ten edges of an independent table (New, Resetting or Reconnecting to Live; New or Live to Resetting; Live to Reconnecting; Live, Resetting or Reconnecting to Deleting; Deleting to Dead); on any other request the state is left unchanged |
| CtrlState.TerminalAndIrreflexive | core.c:222-293 | Dead is never left, New is never re-entered, no state moves to itself, and New to Deleting is refused |
| CtrlState.ResetCtrl | core.c:140-147 | -EBUSY with the state unchanged whenever the Resetting edge is refused; 0 exactly when the edge is taken and the reset work was not already pending; no other return value |
| CtrlState.QueueScan | core.c:3672-3680 | scan work is queued if and only if the controller is Live |
| CtrlState.StateName | core.c:2864-2877 | every state has a non-empty name |
| CtrlState.StateNamesDistinct | core.c:2864-2877 | two states have the same name if and only if they are the same state |
| Completion.ErrorStatus | core.c:160-176 | each result if and only if its codes appear in the low eleven bits: success for Success; no space for Capacity Exceeded; not supported for ONCS Not Supported (0x183); a medium error for Write Fault, Unrecovered Read Error or Access to Unwritten Block; a generic I/O error for every other code |
| Completion.ErrorStatusIgnoresUpperBits | core.c:160-176 | the Do Not Retry bit and every bit above bit 10 leave the block status unchanged |
| Completion.NeedsRetry | core.c:178-189 | a retry is wanted if and only if the request is not fail-fast, the status lacks Do Not Retry, the wrapping jiffies elapsed since start are below the timeout, and the retry count is below the limit |
| Completion.CompleteRq | core.c:191-200 | the request is requeued with one more retry if and only if its status is non-zero and a retry is wanted; otherwise it ends unchanged with the mapped status; a Do Not Retry status always ends it; a zero status ends it with success |
| Completion.RequeueKeepsRetryBound | core.c:191-200 | completion keeps a retry count that is within the limit |
| Completion.Prep | core.c:577-581 | the first preparation zeroes the retry count and the flags; a request already prepared is returned unchanged |
| Completion.PrepIdempotent | core.c:577-581 | preparing twice equals preparing once |
| Completion.RetriesNeverExceedLimit | core.c:178-200 | over any sequence of completions after preparation, the retry count stays within the limit and grows by at most one per completion |
| Completion.CancelRequest | core.c:203-219 | a request that was never started is left alone; otherwise it completes with Abort Requested, and carries Do Not Retry if and only if the queue is dying |
| Completion.CancelOnDyingQueueIsTerminal | core.c:203-219 | a started request cancelled on a dying queue ends once with an I/O error |
| Completion.CancelOnLiveQueueMayRetry | core.c:203-219 | a started, retryable, in-time request cancelled on a live queue is requeued |
| Completion.SyncTimeout | core.c:625 | a zero timeout selects the default; any other timeout is kept |
| Completion.SyncReturn | core.c:614-643 | an allocation error wins, then a mapping error, then -EINTR for a cancelled command, else the NVMe status |
| Completion.SyncReturnSign | core.c:636-639 | the result is positive exactly for a non-zero status of an uncancelled command, and zero exactly for a successful one |
| MpathGroup.GetNsState | core.c:1364-1372 | Active if and only if the member is active on a Live controller; Standby if and only if it is inactive on a Live controller; Undefined if and only if the controller is not Live |
| MpathGroup.GetNsActive | core.c:1374-1384 | the first member that is active, multipath and on a Live controller; None if and only if there is no such member |
| MpathGroup.FirstMpathNs | core.c:897-905 | the lookup of the first multipath namespace finds one if and only if the root is listed, and then it is the root; on an empty list it gives none, which is the intended reading of the driver's dead NULL test (see Left out) |
| MpathIo.PrivBio | core.c:1539-1561 | the saved context keeps the bio, the chosen member and the start time, and gets the full retry budget |
| MpathIo.RetryBio | core.c:1484-1499 | the context is appended to the end of the congestion queue and the wait entry is registered; nothing else in the group changes |
| MpathIo.EndIo | core.c:1507-1537 | a failed bio with retries left on a root that is not being removed is re-queued with one retry fewer and is not completed; any other bio is completed exactly once with its status and its context returns to the pool; members and dispatched bios are untouched |
| MpathIo.RouteActive | core.c:1583-1602 | no member is chosen while a failover is in progress; otherwise the first member that is not being removed and is Active is chosen |
| MpathIo.MakeRequest | core.c:1563-1623 | routing never changes the members, the failover flag, the cleanup flag or the pool size |
| MpathIo.MakeRequestForwards | core.c:1563-1623 | a bio is dispatched if and only if the root is not being removed, the pool has room, no failover is in progress and a usable member exists; it then goes to the first usable member with a full retry budget, and exactly one pool context is taken |
| MpathIo.MakeRequestFailsFast | core.c:1570-1619 | on a root being removed, on an exhausted pool, or with no member on a Live controller, the bio is completed with an I/O error and nothing is queued or dispatched |
| MpathIo.MakeRequestLeaksContext | core.c:1574-1619 | on the "no devices" exit the context taken from the pool is never returned |
| MpathIo.StandbyPathParksBio | core.c:1604-1619 | when only a standby member can take the bio, its forced failure re-enters the end-of-I/O callback, so the bio is parked on the congestion queue with one retry used instead of being completed |
| MpathIo.Redirect | core.c:1385-1458 | each drained context is aimed at the given member, in queue order, with its bio and retry budget kept |
| MpathIo.Resubmit | core.c:1385-1458 | a no-op unless there is no failover, an active multipath member exists, neither it nor the root is being removed, and cleanup is done; otherwise the whole queue is dispatched in order to that member, the queue is emptied and the wait entry dropped |
| MpathIo.FailAll | core.c:852-888 | every queued bio, in order, is completed with an I/O error |
| MpathIo.CancelIos | core.c:852-888 | the whole congestion queue is completed with I/O errors, its contexts return to the pool, and the queue and wait entry are cleared; an empty queue is a no-op |
| MpathIo.KthreadVisit | core.c:1461-1481 | the resubmission thread acts only on a listed root whose wait entry is registered |
| MpathIo.KthreadGuardIsSound | core.c:1473 | under the group invariant, the wait-entry guard never skips a resubmission that would have done something |
| MpathIo.FlushIoWork | core.c:890-918 | with the root not listed it stops, taking the intended reading of the NULL test (see Left out); during a failover it reschedules itself after the I/O timeout; it cancels the congestion queue if and only if the root is listed, no failover is in progress and the namespace is a root |
| MpathIo.RemoveRoot | core.c:3499-3506 | a second removal of the root changes nothing; the first one marks it removing and, on a root, fails every queued bio and returns their contexts to the pool; members, dispatched bios, the failover flag and the list and cleanup state are untouched, and on a group without the root flag nothing but the mark changes |
| MpathIo.RemoveMember | core.c:3499-3509 | the first part of a member's removal: a second removal changes nothing; the first one marks that member removing, changes nothing else in the group, and asks for a failover exactly when the member was active (the rest is DetachMember) |
| MpathIo.DetachMember | core.c:3033-3068 | the rest of a member's removal: the member leaves the list with the others kept in order; if others remain, `cleanup_done` is set and nothing else changes; if it was the last (or the root flag is clear), `cleanup_done` is kept, the root is marked removing, and a root not already removing leaves the list with its queued bios failed |
| MpathIo.DetachReopensCleanup | core.c:3510-3549 | removing one of several members sets `cleanup_done` again after a failed activation cleared it, while the guard step alone leaves it as it was |
| MpathIo.RemoveIdempotent | core.c:3502 | removing a member or the root twice has the effect of removing it once |
| MpathInvariants.EndIoPreservesValid | core.c:1507-1537 | the end-of-I/O callback keeps the group invariant: the wait entry is registered exactly when the queue is non-empty, the queue fits in the pool, and queued contexts keep retry counts below the limit |
| MpathInvariants.MakeRequestPreservesValid | core.c:1563-1623 | routing a bio keeps the group invariant |
| MpathInvariants.ResubmitPreservesValid | core.c:1385-1458 | resubmission keeps the group invariant |
| MpathInvariants.CancelIosPreservesValid | core.c:852-888 | cancellation keeps the group invariant |
| MpathInvariants.RedirectKeepsBios | core.c:1385-1458 | the redirected contexts carry exactly the queued bios, with none dropped or duplicated |
| MpathInvariants.FailAllKeepsBios | core.c:852-888 | the failed completions carry exactly the queued bios |
| MpathInvariants.ResubmitConservesBios | core.c:1385-1458 | resubmission neither drops nor duplicates a bio across queue, dispatch log and completion log |
| MpathInvariants.CancelIosConservesBios | core.c:852-888 | cancellation neither drops nor duplicates a bio |
| MpathInvariants.DetachMemberPreservesValid | core.c:3033-3068 | unlinking a removed member keeps the group invariant and loses no bio |
| MpathInvariants.FlushIoWorkPreservesValid | core.c:890-918 | whatever the cleanup work decides, the group invariant still holds afterwards |
| MpathInvariants.FlushIoWorkConservesBios | core.c:890-918 | the cleanup work neither drops nor duplicates a bio: cancelled ones move to the completions |
| MpathInvariants.KthreadPassPreservesValid | core.c:1461-1481 | one pass of the thread over groups that satisfy the invariant keeps it in every group, loses no bio, and resubmits the queue of every listed root |
| MpathInvariants.EndIoAccountsOnce | core.c:1507-1537 | a returning bio is recorded exactly once more, either on the queue or in the completion log |
| MpathInvariants.MakeRequestAccountsOnce | core.c:1563-1623 | a submitted bio ends up in exactly one place: dispatched, queued or completed |
| MpathInvariants.RouteAccountsOnce | core.c:1580-1619 | the part of routing after a context was taken places the bio exactly once |
| MpathInvariants.FailBioAccountsOnce | core.c:1617-1619 | the error exit records the bio exactly once |
| Failover.ChildPick | core.c:3304-3310 | the trigger inspects the controller's first active namespace, or else the last one walked; there is none if and only if the controller has no namespaces |
| Failover.ChildPickFirstActive | core.c:3304-3310 | the walk stops at the first active namespace: when every namespace before position k is inactive and the one at k is active, the one at k is picked |
| Failover.UpdateActive | core.c:3260-3287 | -1 with the flag cleared if and only if no inactive member off a reconnecting controller exists; 1 with the activation sent to the first such member if and only if the command is issued; 0 with the flag cleared otherwise |
| Failover.PairScan | core.c:3354-3386 | the member walk stops at a pair (one active, one inactive member) if and only if the group has both kinds; otherwise it reports whether each kind was seen |
| Failover.TriggerFailover | core.c:3294-3389 | never touches the I/O side of the group; a no-op when the checks fail (an unlisted root counts as a failed check, the intended reading of the NULL test at line 3334, see Left out) or the flag is already set; an activation is sent only with the flag set and only to a member that is not active |
| Failover.RateLimitChangesNothing | core.c:3366-3371 | when the candidate failed over too recently, the flag is released, the cleanup work is rescheduled and nothing else changes |
| Failover.SwitchDeactivatesOld | core.c:3372-3380 | otherwise the active member is deactivated and time-stamped and cleanup is marked not done; if the command is issued the activation goes to the candidate with the flag held, else the flag is released and the cleanup work rescheduled |
| Failover.FlagStaysSetWithoutActiveMember | core.c:3354-3386 | when no member is active the walk ends with the failover flag still set and nothing sent |
| Failover.AtMostOneSwitch | core.c:3338-3340 | while an activation is outstanding, any further trigger is a no-op |
| Failover.ActiveEndIo | core.c:1063-1092 | the flag is always released; success makes the candidate active and marks cleanup done; failure only re-arms the cleanup work |
| Failover.ActivationRetriesUnused | core.c:1113 | the retry count stored with the activation never changes its outcome |
| Failover.SwitchThenActivateLeavesOneActive | core.c:3294-3389 | from at most one active member, a switch leaves none active, and a successful activation leaves exactly the candidate active |
| Failover.TwoMemberScenario | core.c:3294-3389 | with two members, a failover followed by a successful activation swaps which member is active and ends with the flag released and cleanup done |
| Registry.FindGetNs | core.c:2963-2979 | a hit is an index holding the id, with only smaller ids before it; a miss means every occurrence of the id is preceded by a larger id, where the early exit stops the walk |
| Registry.FindGetNsExactOnSortedList | core.c:2963-2979 | on a sorted list the lookup hits if and only if the id is present |
| Registry.FindGetNsMissesOnUnsortedList | core.c:2963-2979 | on an unsorted list the early exit can miss an id that is present |
| Registry.RemoveAt | core.c:3584-3593 | removing one entry drops exactly that occurrence |
| Registry.RemoveId | core.c:3619-3623 | dropping an id never adds entries and keeps every other id's count |
| Registry.RemoveIdKeepsOrder | core.c:3619-3623 | on a strictly sorted list the id is gone afterwards and the order is kept |
| Registry.RemoveInvalid | core.c:3584-3593 | every remaining id is at most the bound, and nothing is added |
| Registry.RemoveInvalidKeepsValid | core.c:3584-3593 | every id at most the bound keeps its count |
| Registry.RemoveInvalidKeepsOrder | core.c:3584-3593 | a strictly sorted list stays strictly sorted |
| Registry.ValidateNs | core.c:3563-3582 | a healthy id is present afterwards; every other id keeps its count |
| Registry.ScanSequential | core.c:3635-3643 | for any 32-bit nn, afterwards every healthy id from 1 to nn is present, and every remaining id is at most nn and was either present before or is healthy; the loop ends, which the driver's does not at nn = 0xFFFFFFFF (corrected half of a Finding) |
| Registry.SequentialAfterWraps | core.c:3639 | the driver's `unsigned` loop counter after k increments is k + 1 modulo 2^32 |
| Registry.SequentialAsWrittenNeverEnds | core.c:3639 | with nn = 0xFFFFFFFF the guard `i <= nn` holds after every increment, and the counter comes back to 0 |
| Registry.RemoveGap | core.c:3618-3624 | the cursor moves to the new id, or one past the old cursor; ids outside the gap keep their counts |
| Registry.RemoveGapClearsGap | core.c:3618-3624 | on a strictly sorted list no id strictly between the old cursor and the new id remains, and the order is kept |
| Registry.ScanPage | core.c:3611-3625 | every id left after a page was either present or is healthy |
| Registry.ScanNsList | core.c:3595-3633 | -ENOMEM with nothing changed when the buffer cannot be allocated; otherwise 0 or a non-zero failure; every id left was either present or is healthy |
| Registry.NumLists | core.c:3598 | the page count covers nn ids in pages of 1024 when nn is at most 0xFFFFFC00, and is zero above that, where `nn + 1023` wraps in 32 bits |
| Registry.ScanNsListWrapRemovesAll | core.c:3598-3633 | with nn above 0xFFFFFC00 the list scan sends no Identify, removes every namespace and reports success |
| Registry.NsCmpAsWritten | core.c:2955-2961 | the comparator reads the unsigned difference back as a signed 32-bit value, so a difference below -2^31 compares as greater |
| Registry.NsCmpAsWrittenMisordersFarIds | core.c:2955-2961 | ids 0x80000002 and 1 compare in the wrong order, the list [0x80000002, 1] counts as sorted, and the lookup then misses id 1 |
| Registry.NsCmp | core.c:2955-2961 | the corrected comparator's sign is that of the difference of the ids |
| Registry.SortIds | core.c:3667 | the result is sorted and is a permutation of the input |
| Registry.SortedListLookupIsExact | core.c:2963-2979 | after the sort, the lookup hits if and only if the id was in the list |
| Registry.ScanWork | core.c:3645-3670 | nothing changes unless the controller is Live and Identify succeeds; otherwise the list ends sorted under the corrected comparison, not the driver's `ns_cmp` (see Findings and Left out) and holds only ids that were present or are healthy; on the sequential path every healthy id up to nn is present |
| AsyncEvents.QueueAsyncEvents | core.c:3822-3826 | the budget is reset to the number of event slots and the work is queued; with none outstanding the budget balances |
| AsyncEvents.AsyncEventWork | core.c:3706-3720 | the whole budget is submitted, one command per unit and counting down; all of it becomes outstanding |
| AsyncEvents.CompleteAsyncEvent | core.c:3787-3818 | one fewer outstanding; the budget and the work are given back if and only if the status code is Success or Abort Requested; a rescan is queued if and only if a successful event reports a changed namespace on a Live controller; firmware activation work is queued if and only if a successful event reports activation starting |
| AsyncEvents.CompletionKeepsBudget | core.c:3793-3802 | a balanced budget stays balanced if and only if the completion is Success or Abort Requested; any other status loses a slot for good |
| AsyncEvents.WorkKeepsBudget | core.c:3706-3720 | the work keeps the budget balanced and leaves every slot outstanding |
| Encoders.GetLogDw10 | core.c:135-138 | the dword fits in 32 bits |
| Encoders.GetLogDw10Decodes | core.c:135-138 | bits 7:0 hold the log id, bits 15:8 are zero, and bits 31:16 hold the number of dwords minus one |
| Encoders.QueueCountDw11Halves | core.c:1183 | both 16-bit halves of dword 11 hold the requested count minus one |
| Encoders.SetQueueCount | core.c:1181-1206 | a negative status is returned with the count untouched; a positive status gives 0 with the count zeroed; on success the count never grows, stays within 65536, and stays at least one |
| Encoders.SetQueueCountGranted | core.c:1201-1202 | on success the count is the request or one more than a granted half, whichever is smaller |
| Encoders.TransferLengths | core.c:1271-1277 | the data and metadata lengths are 32-bit values, and an extended-LBA namespace carries no separate metadata |
| Encoders.SubmitIo | core.c:1252-1281 | a user I/O is accepted if and only if its flags are zero, its opcode is Write, Read or Compare, and any separate metadata buffer is non-null and dword-aligned; anything else is -EINVAL; an accepted command carries the computed lengths |
| Encoders.TransferCoversBlocks | core.c:1271-1277 | without overflow, the lengths are the number of blocks times the block size, plus metadata either inline or separate |
| Encoders.AssignWriteStream | core.c:447-466 | the per-hint byte counters stay five entries long |
| Encoders.AssignWriteStreamTags | core.c:447-466 | a hint maps to stream id hint-1; the command is tagged with the streams directive exactly for ids 1 to nr_streams; the id goes in the upper half of the directive word and the hint's byte counter grows by the sectors written; an id above nr_streams leaves everything untouched |
| Reservations.NvmePrType | core.c:1891-1909 | each known type gets a code from 1 to 6; code 0 exactly for an unknown type |
| Reservations.NvmePrTypeRoundTrip | core.c:1891-1909 | decoding a type's code gives back the type |
| Reservations.Dw10Fields | core.c:1924 | reservation action, ignore-key, type and persist-through-power-loss fields decode back from the assembled dword |
| Reservations.Register | core.c:1929-1941 | -EOPNOTSUPP if and only if a flag other than ignore-key is set; otherwise a Register command with the old and new keys |
| Reservations.RegisterFields | core.c:1929-1941 | action 2 (replace) with an old key, else 0; ignore-key set exactly by the flag; persist-through-power-loss 3 |
| Reservations.Reserve | core.c:1943-1954 | -EOPNOTSUPP if and only if a flag other than ignore-key is set; otherwise an Acquire command with the key |
| Reservations.ReserveFields | core.c:1943-1954 | action 0, ignore-key set exactly by the flag, and the type field decodes to the requested type |
| Reservations.PreemptAsWritten | core.c:1956-1961 | the conditional operator swallows the whole expression, so dword 10 is always 1 or 2 |
| Reservations.PreemptAsWrittenLosesType | core.c:1959 | a Write Exclusive preempt without abort is sent as action 2 with reservation type 0 |
| Reservations.Preempt | core.c:1956-1961 | the corrected command is an Acquire with the current and preempted keys |
| Reservations.PreemptFields | core.c:1956-1961 | the corrected command has action 2 with abort, else 1, and carries the requested type |
| Reservations.Clear | core.c:1963-1967 | a Register command with the key |
| Reservations.ClearFields | core.c:1963-1967 | action 1, ignore-key set exactly when the key is non-zero, type 0 |
| Reservations.ReleaseAsWritten | core.c:1969-1973 | the conditional operator swallows the whole expression, so dword 10 is always 0 or 8 |
| Reservations.ReleaseAsWrittenLosesType | core.c:1971 | an Exclusive Access release with key 0 is sent with type 0 and ignore-key set |
| Reservations.Release | core.c:1969-1973 | the corrected command is a Release with the key |
| Reservations.ReleaseFields | core.c:1969-1973 | the corrected command has action 0, ignore-key set exactly when the key is non-zero, and carries the requested type |
| Quirks.StringMatches | core.c:2336-2354 | an absent pattern matches; a present one matches if and only if the field is the pattern followed only by spaces |
| Quirks.QuirkMatches | core.c:2356-2362 | an entry matches if and only if the vendor id is equal and both model and firmware strings match |
| Quirks.ApplyCoreQuirks | core.c:2438-2441 | the result is the starting set plus the quirks of every matching entry, and nothing else |
| Quirks.ToshibaGetsNoApst | core.c:2323-2333 | the padded Toshiba THNSF5256GPUK model string matches its table entry and gets APST disabled, and the same string with one more character does not match |
| NsDescs.Copy | core.c:981-1025 | a copy reads the buffer byte by byte and is the plain slice when in bounds |
| NsDescs.ParseFrom | core.c:981-1025 | the identifiers stay well sized; a zero length stops the walk |
| NsDescs.IdentifyNsDescs | core.c:960-1029 | the command status is returned unchanged; a failed command leaves the identifiers untouched |
| NsDescs.ParseEncoded | core.c:981-1025 | parsing a well-formed encoded descriptor list stores every identifier in order and does not overread |
| NsDescs.BogusLengthStops | core.c:981-1025 | a known type with the wrong length stops the walk with what was stored so far, and the call still returns success |
| NsDescs.UnknownTypeSkipped | core.c:981-1025 | an unknown type is skipped by its stated length |
| NsDescs.TrailingDescriptorOverreads | core.c:981-1025 | an EUI64 descriptor whose header sits six bytes before the end of the buffer copies past it |
| Apst.Itpt | core.c:2256-2259 | the idle time prior to transition never exceeds its 24-bit field |
| Apst.ItptRoundsUp | core.c:2172-2259 | the idle time is 50 times the entry plus exit latency, in milliseconds rounded up: the least value whose 20-fold covers the total latency, unless capped at the 24-bit maximum |
| Apst.EntryDecodes | core.c:2256-2262 | an entry holds the target state in bits 7:3 and the idle time in bits 31:8 |
| Apst.FirstGood | core.c:2221-2268 | the shallowest usable state at or after a position, or None if and only if there is none |
| Apst.LastGood | core.c:2221-2268 | the deepest usable state at or after a position, or None if and only if there is none |
| Apst.MaxGoodLatency | core.c:2221-2268 | the largest total latency among the usable states |
| Apst.WalkStep | core.c:2221-2268 | one step of the deepest-first walk over the target, the deepest state and the latency |
| Apst.ExpectedDecodes | core.c:2221-2268 | each state's entry is non-zero if and only if a deeper usable state exists, and then it names the shallowest one and that state's idle time |
| Apst.ApstWalk | core.c:2221-2268 | the walk fills all 32 entries, deeper-than-npss entries zero, and reports the deepest usable state and the largest latency |
| Apst.ConfigureApst | core.c:2167-2288 | not configured if and only if APST is unsupported, npss is above 31 or the table cannot be allocated; when disabled the table is zero; when enabled each entry names the shallowest deeper usable state; the Set Features status is returned |
| Geometry.LbaShift | core.c:1841-1843 | a zero block-size exponent means 512-byte blocks; any other is kept |
| Geometry.Capacity | core.c:1854-1857 | the capacity is zero for formats with unsupported metadata and fits in 64 bits |
| Geometry.CapacityCountsBytes | core.c:1854-1857 | otherwise the capacity in 512-byte sectors covers exactly the namespace size in blocks |
| Geometry.MinNotZero | core.c:2462-2463 | the smaller non-zero value, with zero meaning no limit |
| Geometry.MaxHwSectors | core.c:2458-2463 | `min_not_zero` of the earlier limit and the MDTS limit (`1 << (mdts + page_shift - 9)`, or UINT_MAX when MDTS is 0): the result is one of the two, equals the MDTS limit when there is no earlier one, is positive, and is above neither |
| Geometry.MaxSegments | core.c:2135-2141 | no segment limit is set if and only if max_hw_sectors is zero; the limit never exceeds 65535 |
| Geometry.MaxSegmentsCoverTransfer | core.c:2135-2141 | below the 65535 cap, the segment count is one more than the number of whole pages in a maximal transfer |

## Left out

- Register polling loops with sleeps and deadlines, the keep-alive timer and firmware activation polling are time- and device-driven I/O. The model keeps only the decision to queue the firmware activation work.
- Locks, RCU, atomic bit operations and work scheduling are not modelled. Each locked region is one atomic step, and no interleavings are explored. A scheduled work item is an outcome flag or a `reschedule` field.
- Request and bio allocation, buffer mapping, user-space copies (the -EFAULT path of `nvme_submit_io`), ioctl dispatch, sysfs attributes and string formatting are left out as I/O and foreign calls. The synchronous command result takes the allocation and mapping errors as parameters.
- Reference counting, gendisk and queue creation, the slab and mempool, instance ids, the resubmission thread's start and stop, and device registration are kernel plumbing. The context pool is a counter with a size; the mempool's fallback to the slab is not modelled.
- Integrity and protection-information registration, LightNVM, SED OPAL and I/O statistics are opaque library calls. Integrity registration is a boolean input to the capacity rule.
- `nvme_mpath_make_request`'s retry when a member's parent does not match is left out; the model assumes the member list is consistent.
- `nvme_trigger_failover` reads the asking controller's namespaces through the `ChildNs` parameter, and `nvme_update_active`'s null root check is left out, since the model always has a root.
- MpathIo.RemoveMember: covers the guard and the failover request (MpathIo.RemoveRoot the root's guard and cancellation); MpathIo.DetachMember covers the unlink, the root's removal after the last member, and the `cleanup_done` write. Disk teardown and capacity reset, sysfs, reference counts, cancelling the cleanup work and the controller-list removal are plumbing.
- Device revalidation and namespace allocation in the scan are the `healthy` and `nsList` fields of a `Device` parameter.
- `list_sort` is modelled by its specification: a sort that yields a sorted permutation, written as insertion sort.
- Registry.RemoveGap: the source's `unsigned` cursor and ids wrap at 2^32; the model uses unbounded naturals.
- Geometry.Capacity: requires a block-size exponent of at least 9, because the source's shift by `lba_shift - 9` is undefined below that.
- Geometry.MaxHwSectors: requires that `1 << (mdts + page_shift - 9)` does not overflow, because the source's signed shift is undefined beyond 31 bits.
- Quirks.ApplyCoreQuirks: the table keeps only the fields the match consults and the quirk bits the rest of the model reads.
- NsDescs.ParseFrom: bytes read beyond the 4096-byte buffer are modelled as zeros plus an overread flag, because the source reads memory it does not own.
- Encoders.AssignWriteStream: states only the counter shape in its own contract; the tags are stated by Encoders.AssignWriteStreamTags for hints up to 5.
- Encoders.GetLogDw10: states only the 32-bit range in its own contract; the field layout is stated by Encoders.GetLogDw10Decodes for sizes from 4 bytes to 256 KiB.
- MpathIo.MakeRequest: states only what routing leaves unchanged in its own contract; its outcomes are stated by the MakeRequest lemmas.
- MpathGroup.FirstMpathNs: on an empty list the driver's `list_for_each_entry_safe` leaves its cursor at the list head itself, which is never NULL. The `!mpath_ns` tests at core.c:901 and 3334 cannot fire, and the code goes on with an address that is not a namespace. The model takes the intended reading and stops. MpathIo.FlushIoWork and Failover.TriggerFailover inherit this.
- Registry.ScanWork: sorts with the corrected comparison `NsCmp` from the Findings, not with `ns_cmp` as written. Ids 2^31 or more apart are therefore in ascending order here, where the driver's sort may misorder them.
- Registry.ScanNsList: states membership and return values, not that every healthy listed id is present, because the page contents are an input the model does not constrain.

## Findings

| source | as written | input that shows it | evidently intended | confidence | as-written member | corrected member |
|---|---|---|---|---|---|---|
| core.c:2955-2961 | `ns_cmp` returns the unsigned difference of two ids read back as a signed int | ids 0x80000002 and 1: the difference is above 2^31, so it compares as negative and the sort puts 0x80000002 first; `nvme_find_get_ns` for id 1 then stops early and misses it | compare the ids, returning the sign of their order | not executed | Registry.NsCmpAsWrittenMisordersFarIds | Registry.SortedListLookupIsExact |
| core.c:1959 | `nvme_pr_type(type) << 8 \| abort ? 2 : 1` parses as `((type << 8) \| abort) ? 2 : 1` | any preempt, e.g. Write Exclusive without abort, sends dword 10 = 2: action 2 (preempt and abort) and type 0 | `(type << 8) \| (abort ? 2 : 1)` | not executed | Reservations.PreemptAsWrittenLosesType | Reservations.PreemptFields |
| core.c:1971 | `nvme_pr_type(type) << 8 \| key ? 1 << 3 : 0` parses as `((type << 8) \| key) ? 8 : 0` | an Exclusive Access release with key 0 sends dword 10 = 8: ignore-key set and type 0 | `(type << 8) \| (key ? 1 << 3 : 0)` | not executed | Reservations.ReleaseAsWrittenLosesType | Reservations.ReleaseFields |
| core.c:3639 | `for (i = 1; i <= nn; i++)` with `unsigned i` and `unsigned nn` | nn = 0xFFFFFFFF (a controller reporting the largest count): `i <= nn` holds for every 32-bit i, so after 0xFFFFFFFF the counter wraps to 0 and the loop validates ids forever | validate ids 1 to nn, then stop | not executed | Registry.SequentialAsWrittenNeverEnds | Registry.ScanSequential |

=== FILE: apst.dfy ===
/** Autonomous Power State Transition: the table `nvme_configure_apst`
    programs (section 5.21.1.12 of the NVM Express Base Specification 1.3).
    Entry `i` tells the controller which lower-power state to enter after
    being idle in state `i`, and after how long. */
module Apst {
  import opened Common

  /** A power state descriptor: non-operational flag, exit and entry
      latencies in microseconds (32-bit fields). */
  datatype Psd = Psd(nonOp: bool, exitLat: nat, entryLat: nat)

  /** What `nvme_configure_apst` reads from the controller. */
  datatype ApstCtrl = ApstCtrl(
    apsta: bool, npss: nat, apstEnabled: bool, maxLatencyUs: nat,
    noDeepestPs: bool, psd: seq<Psd>)

  predicate WellFormed(c: ApstCtrl)
  {
    |c.psd| == 32 && forall i :: 0 <= i < 32 ==> c.psd[i].exitLat < U32 && c.psd[i].entryLat < U32
  }

  const MAX_ITPT: nat := 0xff_ffff

  /** A state higher-power states may idle into: not the quirked-off
      deepest state, non-operational, and within the latency budget. */
  predicate Good(c: ApstCtrl, j: nat)
    requires WellFormed(c) && c.npss <= 31 && j <= c.npss
  {
    !(j == c.npss && c.noDeepestPs) && c.psd[j].nonOp && c.psd[j].exitLat <= c.maxLatencyUs
  }

  function TotalLatency(p: Psd): nat
  {
    p.exitLat + p.entryLat
  }

  /** Idle time before the transition: 50 times the round trip, in
      milliseconds rounded up, capped at 24 bits. */
  function Itpt(p: Psd): (r: nat)
    ensures r <= MAX_ITPT
  {
    Min((TotalLatency(p) + 19) / 20, MAX_ITPT)
  }

  /** The idle time is the total latency divided by 20 and rounded up,
      unless that exceeds the field: the smallest value whose 20-fold
      covers the latency. */
  lemma ItptRoundsUp(p: Psd)
    ensures Itpt(p) == MAX_ITPT || TotalLatency(p) <= 20 * Itpt(p)
    ensures Itpt(p) == 0 || 20 * (Itpt(p) - 1) < TotalLatency(p)
  {
    FloorBounds(TotalLatency(p) + 19, 20);
  }

  /** The entry pointing at state `j`: ITPS in bits 7:3, ITPT in 31:8. */
  function Entry(c: ApstCtrl, j: nat): (r: nat)
    requires WellFormed(c) && j < 32
    ensures j >= 1 ==> r != 0
  {
    j * 8 + Itpt(c.psd[j]) * 256
  }

  lemma EntryDecodes(c: ApstCtrl, j: nat)
    requires WellFormed(c) && j < 32
    ensures (Entry(c, j) % 256) / 8 == j && Entry(c, j) % 8 == 0
    ensures Entry(c, j) / 256 == Itpt(c.psd[j])
  {
    var t := Itpt(c.psd[j]);
    assert Entry(c, j) == t * 256 + j * 8;
    DivModUnique(t, j * 8, 256);
    DivModUnique(j, 0, 8);
    assert Entry(c, j) == (t * 32 + j) * 8 + 0;
    DivModUnique(t * 32 + j, 0, 8);
  }

  /** The shallowest good state at or below `s` in power, if any. */
  function FirstGood(c: ApstCtrl, s: nat): (r: Option<nat>)
    requires WellFormed(c) && c.npss <= 31
    ensures r.Some? ==> s <= r.value <= c.npss && Good(c, r.value)
    ensures r.Some? ==> forall k :: s <= k < r.value ==> !Good(c, k)
    ensures r.None? ==> forall k :: s <= k <= c.npss ==> !Good(c, k)
    decreases c.npss + 1 - s
  {
    if s > c.npss then None
    else if Good(c, s) then Some(s)
    else FirstGood(c, s + 1)
  }

  /** The deepest good state, if any. */
  function LastGood(c: ApstCtrl, s: nat): (r: Option<nat>)
    requires WellFormed(c) && c.npss <= 31
    ensures r.Some? ==> s <= r.value <= c.npss && Good(c, r.value)
    ensures r.Some? ==> forall k :: r.value < k <= c.npss ==> !Good(c, k)
    ensures r.None? ==> forall k :: s <= k <= c.npss ==> !Good(c, k)
    decreases c.npss + 1 - s
  {
    if s > c.npss then None
    else match LastGood(c, s + 1)
      case Some(j) => Some(j)
      case None => if Good(c, s) then Some(s) else None
  }

  /** The largest round-trip latency among the good states from `s` on. */
  function MaxGoodLatency(c: ApstCtrl, s: nat): (r: nat)
    requires WellFormed(c) && c.npss <= 31
    ensures forall k :: s <= k <= c.npss && Good(c, k) ==> TotalLatency(c.psd[k]) <= r
    ensures r == 0 || exists k :: s <= k <= c.npss && Good(c, k) && TotalLatency(c.psd[k]) == r
    decreases c.npss + 1 - s
  {
    if s > c.npss then 0
    else
      var rest := MaxGoodLatency(c, s + 1);
      if Good(c, s) && TotalLatency(c.psd[s]) > rest then TotalLatency(c.psd[s]) else rest
  }

  /** The idle target after walking the states from the deepest up to
      `s`: the entry for the shallowest good state at or below `s`. */
  function Target(c: ApstCtrl, s: nat): nat
    requires WellFormed(c) && c.npss <= 31
  {
    match FirstGood(c, s)
    case Some(j) => Entry(c, j)
    case None => 0
  }

  /** The table entry for state `i`: the shallowest good state strictly
      deeper than `i`, or 0 when there is none. */
  function Expected(c: ApstCtrl, i: nat): nat
    requires WellFormed(c) && c.npss <= 31
  {
    Target(c, i + 1)
  }

  /** `max_ps`: the first good state the walk meets, -1 if none. */
  function MaxPs(c: ApstCtrl, s: nat): int
    requires WellFormed(c) && c.npss <= 31
  {
    match LastGood(c, s)
    case Some(j) => j
    case None => -1
  }

  /** How one more state changes the walk's three running values. */
  lemma WalkStep(c: ApstCtrl, s: nat)
    requires WellFormed(c) && c.npss <= 31 && s <= c.npss
    ensures Target(c, s) == if Good(c, s) then Entry(c, s) else Target(c, s + 1)
    ensures MaxPs(c, s) == if MaxPs(c, s + 1) == -1 && Good(c, s) then s else MaxPs(c, s + 1)
    ensures MaxGoodLatency(c, s) ==
              if Good(c, s) && TotalLatency(c.psd[s]) > MaxGoodLatency(c, s + 1)
              then TotalLatency(c.psd[s]) else MaxGoodLatency(c, s + 1)
  {
  }

  /** Read back, entry `i` names the shallowest good state deeper than
      `i`, with that state's idle time; it is zero exactly when no deeper
      state is good. */
  lemma ExpectedDecodes(c: ApstCtrl, i: nat)
    requires WellFormed(c) && c.npss <= 31 && i < 32
    ensures Expected(c, i) != 0 <==> exists k :: i < k <= c.npss && Good(c, k)
    ensures Expected(c, i) != 0 ==>
              var j := (Expected(c, i) % 256) / 8;
              && i < j <= c.npss && Good(c, j)
              && (forall k :: i < k < j ==> !Good(c, k))
              && Expected(c, i) / 256 == Itpt(c.psd[j])
  {
    match FirstGood(c, i + 1)
    case Some(j) => EntryDecodes(c, j);
    case None =>
  }

  datatype Outcome =
    | NotConfigured
    | Configured(apste: nat, table: seq<nat>, maxPs: int, maxLatUs: nat, ret: int)

  /** The walk from the deepest state (NPSS) up to state 0: each state's
      entry gets the target found so far, then a good state becomes the
      new target. */
  method ApstWalk(c: ApstCtrl) returns (table: seq<nat>, maxPs: int, maxLat: nat)
    requires WellFormed(c) && c.npss <= 31
    ensures |table| == 32
    ensures forall i :: 0 <= i < 32 ==> table[i] == if i <= c.npss then Expected(c, i) else 0
    ensures maxPs == MaxPs(c, 0) && maxLat == MaxGoodLatency(c, 0)
  {
    table := seq(32, i => 0);
    var target := 0;
    maxPs := -1;
    maxLat := 0;
    var state: int := c.npss;
    while state >= 0
      invariant -1 <= state <= c.npss
      invariant |table| == 32
      invariant target == Target(c, state + 1)
      invariant forall i :: 0 <= i < 32 ==> table[i] == if state < i <= c.npss then Expected(c, i) else 0
      invariant maxPs == MaxPs(c, state + 1)
      invariant maxLat == MaxGoodLatency(c, state + 1)
    {
      WalkStep(c, state);
      if target != 0 {
        table := table[state := target];
      }
      if Good(c, state) {
        target := Entry(c, state);
        if maxPs == -1 {
          maxPs := state;
        }
        if TotalLatency(c.psd[state]) > maxLat {
          maxLat := TotalLatency(c.psd[state]);
        }
      }
      state := state - 1;
    }
  }

  /** `nvme_configure_apst`: nothing without APST support, a valid NPSS or
      the table buffer; APST off (an all-zero table) when disabled or the
      latency limit is 0; otherwise the walk. `setFeaturesStatus` is what
      the Set Features command returns. */
  method ConfigureApst(c: ApstCtrl, tableAllocOk: bool, setFeaturesStatus: int) returns (r: Outcome)
    requires WellFormed(c)
    ensures !c.apsta || c.npss > 31 || !tableAllocOk <==> r.NotConfigured?
    ensures r.Configured? ==> |r.table| == 32 && r.ret == setFeaturesStatus
    ensures r.Configured? && (!c.apstEnabled || c.maxLatencyUs == 0) ==>
              r.apste == 0 && forall i :: 0 <= i < 32 ==> r.table[i] == 0
    ensures r.Configured? && c.apstEnabled && c.maxLatencyUs != 0 ==>
              && r.apste == 1
              && (forall i :: 0 <= i < 32 ==> r.table[i] == if i <= c.npss then Expected(c, i) else 0)
              && r.maxPs == MaxPs(c, 0) && r.maxLatUs == MaxGoodLatency(c, 0)
  {
    if !c.apsta || c.npss > 31 || !tableAllocOk {
      return NotConfigured;
    }
    if !c.apstEnabled || c.maxLatencyUs == 0 {
      return Configured(0, seq(32, i => 0), -1, 0, setFeaturesStatus);
    }
    var table, maxPs, maxLat := ApstWalk(c);
    r := Configured(1, table, maxPs, maxLat, setFeaturesStatus);
  }
}

=== FILE: async_events.dfy ===
/** The Asynchronous Event Request budget: `event_limit` counts the AER
    commands the host may still have outstanding (section 5.2 of the NVM
    Express Base Specification 1.3). */
module AsyncEvents {
  import opened CtrlState
  import Config

  /** Asynchronous event information, masked with 0xff07: event type in
      bits 2:0, event information in bits 15:8. */
  const AER_NOTICE_NS_CHANGED: bv32 := 0x0002
  const AER_NOTICE_FW_ACT_STARTING: bv32 := 0x0102

  /** `event_limit` together with the AER commands the controller holds,
      and whether `async_event_work` is queued. */
  datatype Budget = Budget(limit: nat, outstanding: nat, workQueued: bool)

  /** Every AER slot is either free in `limit` or held by the controller. */
  predicate Balanced(cfg: Config.Config, b: Budget)
  {
    b.limit + b.outstanding == cfg.nrAers
  }

  /** `nvme_queue_async_events`, called when the controller (re)starts with
      no AER command outstanding. */
  function QueueAsyncEvents(cfg: Config.Config, b: Budget): (r: Budget)
    ensures r.limit == cfg.nrAers && r.workQueued
    ensures b.outstanding == 0 ==> Balanced(cfg, r)
  {
    b.(limit := cfg.nrAers, workQueued := true)
  }

  /** `nvme_async_event_work`: submits one AER per free slot, with the
      indices `limit-1` down to 0, and leaves `limit` at 0. */
  method AsyncEventWork(b: Budget) returns (r: Budget, submitted: seq<nat>)
    ensures r.limit == 0 && !r.workQueued
    ensures r.outstanding == b.outstanding + b.limit
    ensures |submitted| == b.limit
    ensures forall k :: 0 <= k < |submitted| ==> submitted[k] == b.limit - 1 - k
  {
    var limit: nat := b.limit;
    var outstanding: nat := b.outstanding;
    submitted := [];
    while limit > 0
      invariant limit + |submitted| == b.limit
      invariant outstanding == b.outstanding + |submitted|
      invariant forall k :: 0 <= k < |submitted| ==> submitted[k] == b.limit - 1 - k
    {
      limit := limit - 1;
      submitted := submitted + [limit];
      outstanding := outstanding + 1;
    }
    r := Budget(limit, outstanding, false);
  }

  /** What a completed AER leads to besides the budget. */
  datatype Notice = Notice(rescanQueued: bool, fwActivationQueued: bool, unknownResult: bool)

  const NO_NOTICE := Notice(false, false, false)

  /** The status field as delivered with the phase bit in bit 0. */
  function StatusCode(status: bv16): bv16
  {
    status >> 1
  }

  /** `nvme_complete_async_event`: a SUCCESS or ABORT_REQ completion frees
      its slot and requeues the work; only a SUCCESS is decoded, a
      namespace-change notice rescanning a live controller and a firmware
      activation notice starting the activation work. */
  function CompleteAsyncEvent(b: Budget, state: State, status: bv16, result: bv32): (r: (Budget, Notice))
    requires b.outstanding > 0
    ensures r.0.outstanding == b.outstanding - 1
    ensures r.0.limit == b.limit + (if StatusCode(status) in {0, 7} then 1 else 0)
    ensures r.0.workQueued == (b.workQueued || StatusCode(status) in {0, 7})
    ensures StatusCode(status) != 0 ==> r.1 == NO_NOTICE
    ensures r.1.rescanQueued <==>
              StatusCode(status) == 0 && result & 0xff07 == AER_NOTICE_NS_CHANGED && state == Live
    ensures r.1.fwActivationQueued <==>
              StatusCode(status) == 0 && result & 0xff07 == AER_NOTICE_FW_ACT_STARTING
  {
    var code := StatusCode(status);
    var b1 := b.(outstanding := b.outstanding - 1);
    var b2 := if code == 0 || code == 7 then b1.(limit := b1.limit + 1, workQueued := true) else b1;
    if code != 0 then (b2, NO_NOTICE)
    else
      var event := result & 0xff07;
      if event == AER_NOTICE_NS_CHANGED then (b2, Notice(QueueScan(state), false, false))
      else if event == AER_NOTICE_FW_ACT_STARTING then (b2, Notice(false, true, false))
      else (b2, Notice(false, false, true))
  }

  /** The budget stays balanced through a SUCCESS or ABORT_REQ completion;
      any other status loses the slot for good. */
  lemma CompletionKeepsBudget(cfg: Config.Config, b: Budget, state: State, status: bv16, result: bv32)
    requires Balanced(cfg, b) && b.outstanding > 0
    ensures Balanced(cfg, CompleteAsyncEvent(b, state, status, result).0) <==> StatusCode(status) in {0, 7}
  {
  }

  /** Running the work on a balanced budget keeps it balanced. */
  method WorkKeepsBudget(cfg: Config.Config, b: Budget) returns (r: Budget)
    requires Balanced(cfg, b)
    ensures Balanced(cfg, r) && r.limit == 0 && r.outstanding == cfg.nrAers
  {
    var submitted;
    r, submitted := AsyncEventWork(b);
  }
}

=== FILE: common.dfy ===
/** Shared vocabulary: optional values, fixed-width arithmetic and the
    Linux error numbers the driver returns (as negative integers). */
module Common {

  datatype Option<+T> = None | Some(value: T)

  const U16: nat := 0x1_0000
  const U32: nat := 0x1_0000_0000
  const U64: nat := 0x1_0000_0000_0000_0000

  /** Truncation of a mathematical integer to an unsigned `bits`-wide C value. */
  function Wrap(x: int, modulus: nat): (r: nat)
    requires modulus > 0
    ensures r < modulus
    ensures 0 <= x < modulus ==> r == x
  {
    x % modulus
  }

  /** `a - b` on two `unsigned long` jiffies values: wraps modulo 2^64. */
  function JiffiesSince(now: nat, start: nat): (r: nat)
    ensures r < U64
    ensures start <= now < U64 ==> r == now - start
  {
    (now - start) % U64
  }

  function Min(a: int, b: int): (r: int)
    ensures r <= a && r <= b
    ensures r == a || r == b
  {
    if a < b then a else b
  }

  /** 2^n, the value of `1 << n` before any truncation. */
  function Pow2(n: nat): (r: nat)
    ensures r >= 1
  {
    if n == 0 then 1 else 2 * Pow2(n - 1)
  }

  lemma {:induction false} Pow2Add(a: nat, b: nat)
    ensures Pow2(a + b) == Pow2(a) * Pow2(b)
    decreases a
  {
    if a > 0 {
      Pow2Add(a - 1, b);
      assert Pow2(a + b) == 2 * Pow2(a - 1 + b);
    }
  }

  lemma {:induction false} Pow2Monotone(a: nat, b: nat)
    requires a <= b
    ensures Pow2(a) <= Pow2(b)
    decreases b
  {
    if a < b { Pow2Monotone(a, b - 1); }
  }

  lemma Pow2Table()
    ensures Pow2(8) == 0x100 && Pow2(9) == 0x200 && Pow2(16) == 0x1_0000 && Pow2(31) == 0x8000_0000
  {
    assert Pow2(8) == 0x100;
    Pow2Add(8, 8);
    Pow2Add(8, 7);
    Pow2Add(16, 15);
  }

  /** A value written as quotient and remainder divides back into them. */
  lemma DivModUnique(q: int, r: int, m: int)
    requires m > 0 && 0 <= r < m
    ensures (q * m + r) / m == q && (q * m + r) % m == r
  {
    var x := q * m + r;
    var q', r' := x / m, x % m;
    assert (q' - q) * m == r - r';
    if q' > q {
      MulAtLeast(q' - q, m);
      assert false;
    }
    if q' < q {
      MulAtLeast(q - q', m);
      assert false;
    }
  }

  /** Floor division brackets its dividend. */
  lemma FloorBounds(x: nat, p: nat)
    requires p >= 1
    ensures x / p <= x
    ensures (x / p) * p <= x < (x / p) * p + p
  {
    var q, r := x / p, x % p;
    assert x == q * p + r;
    if q > 0 { MulAtLeast(p, q); assert p * q == q * p; }
  }

  lemma MulAtLeast(k: int, m: int)
    requires k >= 1 && m > 0
    ensures k * m >= m
  {
  }

  // Linux errno values, negated as the driver returns them.
  const EINTR: int := -4
  const ENOMEM: int := -12
  const EBUSY: int := -16
  const EINVAL: int := -22
  const EOPNOTSUPP: int := -95
}

/** Block-layer completion codes (`blk_status_t`) the core hands back. */
module BlockStatus {
  datatype BlkStatus = Ok | NoSpace | NotSupported | Medium | IoError
}

/** Tunables of the driver: module parameters and build-time constants
    that the source reads but does not define in the modelled file. */
module Config {
  datatype Config = Config(
    maxRetries: nat,        // nvme_max_retries (an unsigned char)
    failoverInterval: nat,  // ns_failover_interval, in seconds
    hz: nat,                // jiffies per second
    ioTimeout: nat,         // nvme_io_timeout, in seconds
    nrAers: nat             // NVME_NR_AERS
  )

  predicate Valid(c: Config)
  {
    c.maxRetries < 256 && c.failoverInterval < 0x1_0000_0000 && c.hz > 0 && c.ioTimeout < 256
  }
}

=== FILE: completion.dfy ===
/** Completion and retry policy for a single request: status mapping,
    the retry predicate, requeue versus end, cancellation and the
    once-per-request preparation that resets the retry counter. */
module Completion {
  import opened Common
  import opened BlockStatus
  import Config

  // Status field values (Status Code Type << 8 | Status Code) as the Linux
  // `nvme.h` header defines them, laid out as in section 4.6.1 of the NVM
  // Express Base Specification 1.3; bit 14 is Do Not Retry.
  const SC_SUCCESS: bv16 := 0x0
  const SC_ABORT_REQ: bv16 := 0x7
  const SC_ONCS_NOT_SUPPORTED: bv16 := 0x183
  const SC_CAP_EXCEEDED: bv16 := 0x81
  const SC_WRITE_FAULT: bv16 := 0x280
  const SC_READ_ERROR: bv16 := 0x281
  const SC_UNWRITTEN_BLOCK: bv16 := 0x287
  const SC_DNR: bv16 := 0x4000

  /** The driver's view of one block request. */
  datatype Request = Request(
    status: bv16,      // NVMe status of the last completion
    retries: nat,      // nvme_req(req)->retries
    flags: nat,        // nvme_req(req)->flags
    cancelled: bool,   // NVME_REQ_CANCELLED in flags
    prepared: bool,    // RQF_DONTPREP
    started: bool,     // blk_mq_request_started
    noRetry: bool,     // blk_noretry_request (fail-fast bits)
    startTime: nat,    // jiffies when started
    timeout: nat       // req->timeout, in jiffies
  )

  /** The status codes that map to something other than a generic I/O error. */
  const MappedCodes: set<bv16> :=
    {SC_SUCCESS, SC_CAP_EXCEEDED, SC_ONCS_NOT_SUPPORTED, SC_WRITE_FAULT, SC_READ_ERROR, SC_UNWRITTEN_BLOCK}

  /** `nvme_error_status`: only the status code type and code (the low
      eleven bits) decide the block status. */
  function ErrorStatus(status: bv16): (r: BlkStatus)
    ensures r == Ok <==> status & 0x7ff == SC_SUCCESS
    ensures r == NoSpace <==> status & 0x7ff == SC_CAP_EXCEEDED
    ensures r == NotSupported <==> status & 0x7ff == SC_ONCS_NOT_SUPPORTED
    ensures r == Medium <==> status & 0x7ff in {SC_WRITE_FAULT, SC_READ_ERROR, SC_UNWRITTEN_BLOCK}
    ensures r == IoError <==> status & 0x7ff !in MappedCodes
  {
    var sc := status & 0x7ff;
    if sc == SC_SUCCESS then Ok
    else if sc == SC_CAP_EXCEEDED then NoSpace
    else if sc == SC_ONCS_NOT_SUPPORTED then NotSupported
    else if sc == SC_WRITE_FAULT || sc == SC_READ_ERROR || sc == SC_UNWRITTEN_BLOCK then Medium
    else IoError
  }

  /** The Do Not Retry and More bits never change the block status. */
  lemma ErrorStatusIgnoresUpperBits(status: bv16)
    ensures ErrorStatus(status | SC_DNR) == ErrorStatus(status)
    ensures ErrorStatus(status & 0x7ff) == ErrorStatus(status)
  {
    assert (status | SC_DNR) & 0x7ff == status & 0x7ff;
    assert (status & 0x7ff) & 0x7ff == status & 0x7ff;
  }

  predicate HasDnr(status: bv16)
  {
    status & SC_DNR != 0
  }

  /** `nvme_req_needs_retry`, checked in the source's order. */
  function NeedsRetry(cfg: Config.Config, req: Request, now: nat): (r: bool)
    ensures r <==> !req.noRetry && !HasDnr(req.status)
                   && JiffiesSince(now, req.startTime) < req.timeout
                   && req.retries < cfg.maxRetries
  {
    if req.noRetry then false
    else if HasDnr(req.status) then false
    else if JiffiesSince(now, req.startTime) >= req.timeout then false
    else if req.retries >= cfg.maxRetries then false
    else true
  }

  /** What `nvme_complete_rq` does with a completed request. */
  datatype Disposition = Requeued(req: Request) | Ended(req: Request, result: BlkStatus)

  /** `nvme_complete_rq`: requeue with one more retry, or end once with the
      mapped status. */
  function CompleteRq(cfg: Config.Config, req: Request, now: nat): (d: Disposition)
    ensures d.Requeued? <==> req.status != 0 && NeedsRetry(cfg, req, now)
    ensures d.Requeued? ==> d.req == req.(retries := req.retries + 1)
    ensures d.Ended? ==> d.req == req && d.result == ErrorStatus(req.status)
    ensures HasDnr(req.status) ==> d.Ended?
    ensures req.status == 0 ==> d == Ended(req, Ok)
  {
    if req.status != 0 && NeedsRetry(cfg, req, now) then
      Requeued(req.(retries := req.retries + 1))
    else
      Ended(req, ErrorStatus(req.status))
  }

  /** A request whose counter is within budget stays within budget. */
  lemma RequeueKeepsRetryBound(cfg: Config.Config, req: Request, now: nat)
    requires req.retries <= cfg.maxRetries
    ensures CompleteRq(cfg, req, now).req.retries <= cfg.maxRetries
  {
  }

  /** `nvme_setup_cmd` lines that reset the per-request state the first
      time a request is prepared, and only then. */
  function Prep(req: Request): (r: Request)
    ensures r.prepared && r.retries <= req.retries
    ensures !req.prepared ==> r.retries == 0 && r.flags == 0 && !r.cancelled
    ensures req.prepared ==> r == req
    ensures r.status == req.status && r.startTime == req.startTime
  {
    if req.prepared then req
    else req.(retries := 0, flags := 0, cancelled := false, prepared := true)
  }

  lemma PrepIdempotent(req: Request)
    ensures Prep(Prep(req)) == Prep(req)
  {
  }

  /** One completion the device delivers for an outstanding request. */
  datatype Event = Event(status: bv16, now: nat)

  /** Feeds successive completions to `CompleteRq` until the request ends
      or the events run out; returns the request as last seen. */
  function Drive(cfg: Config.Config, req: Request, events: seq<Event>): (d: Disposition)
    decreases |events|
  {
    if |events| == 0 then Requeued(req)
    else
      match CompleteRq(cfg, req.(status := events[0].status), events[0].now)
      case Ended(r, s) => Ended(r, s)
      case Requeued(r) => Drive(cfg, r, events[1..])
  }

  /** However many times a request is completed and requeued after it is
      prepared, its counter never exceeds the retry limit and it is
      requeued at most that many times. */
  lemma {:induction false} RetriesNeverExceedLimit(cfg: Config.Config, req: Request, events: seq<Event>)
    requires req.retries <= cfg.maxRetries
    ensures Drive(cfg, req, events).req.retries <= cfg.maxRetries
    ensures Drive(cfg, req, events).req.retries <= req.retries + |events|
    decreases |events|
  {
    if |events| > 0 {
      match CompleteRq(cfg, req.(status := events[0].status), events[0].now)
      case Ended(r, s) =>
      case Requeued(r) => RetriesNeverExceedLimit(cfg, r, events[1..]);
    }
  }

  /** `nvme_cancel_request`: a request never started is left alone;
      otherwise it completes with Abort Requested, plus Do Not Retry when
      the queue is dying. `None` means nothing was completed. */
  function CancelRequest(cfg: Config.Config, req: Request, dying: bool, now: nat): (d: Option<Disposition>)
    ensures d.None? <==> !req.started
    ensures d.Some? ==> d.value.req.status & 0x7ff == SC_ABORT_REQ
    ensures d.Some? ==> (HasDnr(d.value.req.status) <==> dying)
  {
    if !req.started then None
    else
      var status := if dying then SC_ABORT_REQ | SC_DNR else SC_ABORT_REQ;
      Some(CompleteRq(cfg, req.(status := status), now))
  }

  /** A started request cancelled on a dying queue ends, once, with an
      I/O error: it can never be requeued. */
  lemma CancelOnDyingQueueIsTerminal(cfg: Config.Config, req: Request, now: nat)
    requires req.started
    ensures CancelRequest(cfg, req, true, now) == Some(Ended(req.(status := SC_ABORT_REQ | SC_DNR), IoError))
  {
  }

  /** On a live queue a cancelled request is retried while it has budget. */
  lemma CancelOnLiveQueueMayRetry(cfg: Config.Config, req: Request, now: nat)
    requires req.started && !req.noRetry && req.retries < cfg.maxRetries
    requires JiffiesSince(now, req.startTime) < req.timeout
    ensures CancelRequest(cfg, req, false, now).value.Requeued?
  {
  }

  /** `__nvme_submit_sync_cmd`: a zero timeout means the queue default. */
  function SyncTimeout(timeout: nat, defaultTimeout: nat): (t: nat)
    ensures timeout != 0 ==> t == timeout
    ensures timeout == 0 ==> t == defaultTimeout
  {
    if timeout != 0 then timeout else defaultTimeout
  }

  /** The outcome of a synchronous command: allocation and buffer mapping
      errors (negative), else -EINTR when cancelled, else the NVMe status. */
  function SyncReturn(allocErr: int, mapErr: int, cancelled: bool, status: bv16): (ret: int)
    requires allocErr <= 0 && mapErr <= 0
    ensures allocErr < 0 ==> ret == allocErr
    ensures allocErr == 0 && mapErr < 0 ==> ret == mapErr
    ensures allocErr == 0 && mapErr == 0 ==> ret == (if cancelled then EINTR else status as int)
  {
    if allocErr < 0 then allocErr
    else if mapErr < 0 then mapErr
    else if cancelled then EINTR
    else status as int
  }

  /** The sign convention the caller relies on: negative is a Linux error,
      positive an NVMe status, zero success. */
  lemma SyncReturnSign(allocErr: int, mapErr: int, cancelled: bool, status: bv16)
    requires allocErr <= 0 && mapErr <= 0
    ensures SyncReturn(allocErr, mapErr, cancelled, status) > 0 <==>
      allocErr == 0 && mapErr == 0 && !cancelled && status != 0
    ensures SyncReturn(allocErr, mapErr, cancelled, status) == 0 <==>
      allocErr == 0 && mapErr == 0 && !cancelled && status == 0
  {
  }
}

=== FILE: ctrl_state.dfy ===
/** The controller lifecycle state machine: a check-and-set over six
    states, and the operations gated on it. */
module CtrlState {
  import opened Common

  datatype State = New | Live | Resetting | Reconnecting | Deleting | Dead

  /** The edges the driver accepts, written as a table independent of the
      switch the driver uses to decide them. */
  predicate Allowed(from: State, to: State)
  {
    (from, to) in {
      (New, Live), (Resetting, Live), (Reconnecting, Live),
      (New, Resetting), (Live, Resetting),
      (Live, Reconnecting),
      (Live, Deleting), (Resetting, Deleting), (Reconnecting, Deleting),
      (Deleting, Dead)
    }
  }

  /** Outcome of a transition request: the new state and whether it changed. */
  datatype Transition = Transition(state: State, changed: bool)

  /** `nvme_change_ctrl_state`: the switch on the requested state, then on
      the current one, committed only when an edge matched. */
  function ChangeState(cur: State, target: State): (t: Transition)
    ensures t.changed <==> Allowed(cur, target)
    ensures t.changed ==> t.state == target
    ensures !t.changed ==> t.state == cur
  {
    var changed :=
      match target
      case Live => cur == New || cur == Resetting || cur == Reconnecting
      case Resetting => cur == New || cur == Live
      case Reconnecting => cur == Live
      case Deleting => cur == Live || cur == Resetting || cur == Reconnecting
      case Dead => cur == Deleting
      case New => false;
    Transition(if changed then target else cur, changed)
  }

  /** Dead is terminal, a controller never re-enters New, and no state
      moves to itself. */
  lemma TerminalAndIrreflexive(s: State, target: State)
    ensures ChangeState(Dead, target).state == Dead
    ensures !ChangeState(s, New).changed
    ensures !ChangeState(s, s).changed
    ensures !ChangeState(New, Deleting).changed
  {
  }

  /** `nvme_reset_ctrl`: -EBUSY when the Resetting edge is refused, and
      also when the reset work was already queued (`workQueued` false
      models `queue_work` reporting the work as pending). */
  function ResetCtrl(s: State, workQueued: bool): (r: (State, int))
    ensures !Allowed(s, Resetting) ==> r == (s, EBUSY)
    ensures Allowed(s, Resetting) ==> r.0 == Resetting
    ensures r.1 == 0 <==> Allowed(s, Resetting) && workQueued
    ensures r.1 == 0 || r.1 == EBUSY
  {
    var t := ChangeState(s, Resetting);
    if !t.changed then (s, EBUSY)
    else if !workQueued then (t.state, EBUSY)
    else (t.state, 0)
  }

  /** `nvme_queue_scan`: scan work is queued only on a live controller. */
  function QueueScan(s: State): (queued: bool)
    ensures queued <==> s == Live
  {
    s == Live
  }

  /** Name shown for a state (the `state_name` table). */
  function StateName(s: State): (name: string)
    ensures |name| > 0
  {
    match s
    case New => "new"
    case Live => "live"
    case Resetting => "resetting"
    case Reconnecting => "reconnecting"
    case Deleting => "deleting"
    case Dead => "dead"
  }

  /** Every state has its own name, so the name identifies the state. */
  lemma StateNamesDistinct(a: State, b: State)
    ensures StateName(a) == StateName(b) <==> a == b
  {
    if a != b {
      assert StateName(a) != StateName(b) by {
        match a
        case New => assert StateName(a)[0] == 'n';
        case Live => assert StateName(a)[0] == 'l';
        case Resetting => assert StateName(a)[0..3] == "res";
        case Reconnecting => assert StateName(a)[0..3] == "rec";
        case Deleting => assert StateName(a)[0..2] == "de";
        case Dead => assert StateName(a)[0..3] == "dea";
      }
    }
  }
}

=== FILE: encoders.dfy ===
/** Command-field encoders: the Get Log Page dword 10, the Number of
    Queues feature, the user I/O command check and the write-stream tag. */
module Encoders {
  import opened Common

  /** `nvme_get_log_dw10`: the dword count minus one (NUMDL) in bits 31:16
      and the log identifier in bits 7:0 (section 5.14 of the NVM Express
      Base Specification 1.3). The shift happens on a 64-bit `size_t` and
      the result is truncated to 32 bits, so only the low 16 bits of the
      dword count survive, and a size below 4 wraps to 0xffff. */
  function GetLogDw10(lid: nat, size: nat): (r: nat)
    requires lid < 256
    ensures r < U32
  {
    Wrap(size / 4 - 1, U16) * U16 + lid
  }

  /** The identifier and the dword count read back out of the dword. */
  lemma GetLogDw10Decodes(lid: nat, size: nat)
    requires lid < 256 && 4 <= size <= 4 * U16
    ensures GetLogDw10(lid, size) % 256 == lid
    ensures (GetLogDw10(lid, size) % U16) / 256 == 0
    ensures GetLogDw10(lid, size) / U16 + 1 == size / 4
  {
    var numd := size / 4 - 1;
    assert Wrap(numd, U16) == numd;
    SplitWord(numd, lid);
  }

  /** A 16-bit upper half over a byte-sized lower half splits back apart. */
  lemma SplitWord(hi: nat, lo: nat)
    requires lo < 256
    ensures (hi * U16 + lo) % 256 == lo
    ensures ((hi * U16 + lo) % U16) / 256 == 0
    ensures (hi * U16 + lo) / U16 == hi
  {
    var x := hi * U16 + lo;
    DivModUnique(hi, lo, U16);
    assert x == (hi * 256) * 256 + lo;
    DivModUnique(hi * 256, lo, 256);
    DivModUnique(0, lo, 256);
  }

  /** Feature identifier of Number of Queues (section 5.21.1.7 of the NVM
      Express Base Specification 1.3). */
  const FEAT_NUM_QUEUES: nat := 0x07

  /** Dword 11 of Set Features for `*count` queues: the zero-based count in
      both halves. The `int` arithmetic is taken on `*count`'s 32-bit
      two's-complement pattern, which is what the `u32` keeps. */
  function QueueCountDw11(count: bv32): (r: bv32)
  {
    var n := count - 1;
    n | (n << 16)
  }

  /** Both halves ask for `count` queues whenever `count` is 1 to 65536. */
  lemma QueueCountDw11Halves(count: bv32)
    requires 1 <= count <= 0x1_0000
    ensures QueueCountDw11(count) & 0xffff == count - 1
    ensures QueueCountDw11(count) >> 16 == count - 1
  {
  }

  /** `nvme_set_queue_count`: the return value and the new `*count`, given
      the Set Features status (negative: transport error, positive: NVMe
      status) and the completion's dword 0. */
  function SetQueueCount(count: int, status: int, result: bv32): (r: (int, int))
    ensures status < 0 ==> r == (status, count)
    ensures status > 0 ==> r == (0, 0)
    ensures status == 0 ==> r.0 == 0
    ensures status == 0 ==> r.1 <= count
    ensures status == 0 ==> r.1 <= U16
    ensures status == 0 && count >= 1 ==> r.1 >= 1
  {
    if status < 0 then (status, count)
    else if status > 0 then (0, 0)
    else
      var nsqa := (result & 0xffff) as nat;
      var ncqa := (result >> 16) as nat;
      (0, Min(count, Min(nsqa, ncqa) + 1))
  }

  /** On success the count is what both the host asked for and the
      controller granted: never more than either allocated queue count. */
  lemma SetQueueCountGranted(count: int, result: bv32)
    ensures var n := SetQueueCount(count, 0, result).1;
            n <= (result & 0xffff) as int + 1 && n <= (result >> 16) as int + 1
            && (n == count || n == (result & 0xffff) as int + 1 || n == (result >> 16) as int + 1)
  {
  }

  /** Opcodes a user I/O may carry (section 6 of the NVM Express Base
      Specification 1.3): Write, Read, Compare. */
  const CMD_WRITE: nat := 0x01
  const CMD_READ: nat := 0x02
  const CMD_COMPARE: nat := 0x05

  datatype UserIo = UserIo(opcode: nat, flags: nat, nblocks: nat, metadata: nat)

  datatype IoCheck = Rejected(err: int) | Accepted(length: nat, metaLen: nat)

  /** The data and metadata lengths of `nvme_submit_io`: `(nblocks + 1) <<
      lba_shift` and `(nblocks + 1) * ms` stored in `unsigned`; with an
      extended LBA format the metadata is interleaved with the data. */
  function TransferLengths(io: UserIo, lbaShift: nat, ms: nat, ext: bool): (r: (nat, nat))
    ensures r.0 < U32 && r.1 < U32
    ensures ext ==> r.1 == 0
  {
    var length := Wrap((io.nblocks + 1) * Pow2(lbaShift), U32);
    var metaLen := Wrap((io.nblocks + 1) * ms, U32);
    if ext then (Wrap(length + metaLen, U32), 0) else (length, metaLen)
  }

  /** `nvme_submit_io` up to the command it builds. */
  function SubmitIo(io: UserIo, lbaShift: nat, ms: nat, ext: bool): (r: IoCheck)
    ensures r.Accepted? <==>
              io.flags == 0 && io.opcode in {CMD_WRITE, CMD_READ, CMD_COMPARE}
              && (ext || TransferLengths(io, lbaShift, ms, ext).1 == 0
                  || (io.metadata % 4 == 0 && io.metadata != 0))
    ensures r.Rejected? ==> r.err == EINVAL
    ensures r.Accepted? ==> (r.length, r.metaLen) == TransferLengths(io, lbaShift, ms, ext)
  {
    if io.flags != 0 then Rejected(EINVAL)
    else if io.opcode !in {CMD_WRITE, CMD_READ, CMD_COMPARE} then Rejected(EINVAL)
    else
      var (length, metaLen) := TransferLengths(io, lbaShift, ms, ext);
      if !ext && metaLen != 0 && (io.metadata % 4 != 0 || io.metadata == 0) then Rejected(EINVAL)
      else Accepted(length, metaLen)
  }

  /** When nothing wraps the transfer covers exactly `nblocks + 1` logical
      blocks, with their metadata inline for an extended format. */
  lemma {:induction false} TransferCoversBlocks(io: UserIo, lbaShift: nat, ms: nat, ext: bool)
    requires (io.nblocks + 1) * (Pow2(lbaShift) + ms) < U32
    ensures var (length, metaLen) := TransferLengths(io, lbaShift, ms, ext);
            (ext ==> length == (io.nblocks + 1) * (Pow2(lbaShift) + ms) && metaLen == 0)
            && (!ext ==> length == (io.nblocks + 1) * Pow2(lbaShift) && metaLen == (io.nblocks + 1) * ms)
  {
    var n := io.nblocks + 1;
    var p := Pow2(lbaShift);
    MulLe(n, p, p + ms);
    MulLe(n, ms, p + ms);
    assert n * p + n * ms == n * (p + ms);
  }

  lemma MulLe(a: nat, b: nat, c: nat)
    requires b <= c
    ensures a * b <= a * c
  {
  }

  /** `enum rw_hint`: NOT_SET, NONE, SHORT, MEDIUM, LONG, EXTREME. */
  const WRITE_LIFE_NOT_SET: nat := 0
  const WRITE_LIFE_NONE: nat := 1
  const MAX_WRITE_HINTS: nat := 5
  const RW_DTYPE_STREAMS: nat := 0x10

  /** The bits the call ORs into the command's control and dword 13, and the
      queue's per-hint sector counters. */
  datatype StreamTag = StreamTag(control: nat, dsmgmt: nat, writeHints: seq<nat>)

  /** `nvme_assign_write_stream`: hints past NONE map to stream `hint - 1`,
      tagging the write with the Streams directive type and the stream id in
      dword 13's upper half, unless that exceeds `nr_streams`, which leaves
      everything as it was; the written sectors are counted per stream. */
  function AssignWriteStream(nrStreams: nat, hint: nat, bytes: nat, hints: seq<nat>): (r: StreamTag)
    requires |hints| == MAX_WRITE_HINTS
    ensures |r.writeHints| == MAX_WRITE_HINTS
  {
    var streamId := if hint == WRITE_LIFE_NOT_SET || hint == WRITE_LIFE_NONE then 0 else hint - 1;
    if streamId != 0 && streamId > nrStreams then StreamTag(0, 0, hints)
    else
      var control := if streamId == 0 then 0 else RW_DTYPE_STREAMS;
      var dsmgmt := Wrap(streamId * U16, U32);
      var counted := if streamId < MAX_WRITE_HINTS then hints[streamId := hints[streamId] + bytes / 512] else hints;
      StreamTag(control, dsmgmt, counted)
  }

  /** The write is tagged exactly for a hint past NONE whose stream exists,
      and the stream id reads back out of dword 13; exactly one counter,
      the stream's, grows by the written sectors, and a refused stream
      changes nothing. */
  lemma AssignWriteStreamTags(nrStreams: nat, hint: nat, bytes: nat, hints: seq<nat>)
    requires |hints| == MAX_WRITE_HINTS && hint <= 5
    ensures var r := AssignWriteStream(nrStreams, hint, bytes, hints);
            var id := if hint <= 1 then 0 else hint - 1;
            (r.control == RW_DTYPE_STREAMS <==> id >= 1 && id <= nrStreams)
            && (id <= nrStreams ==>
                  r.dsmgmt / U16 == id && r.dsmgmt % U16 == 0
                  && r.writeHints[id] == hints[id] + bytes / 512
                  && forall k :: 0 <= k < MAX_WRITE_HINTS && k != id ==> r.writeHints[k] == hints[k])
            && (id > nrStreams ==> r == StreamTag(0, 0, hints))
  {
  }
}

=== FILE: failover.dfy ===
/** Failover of a multipath group: choosing a new active member, the
    rate limit between switches, the asynchronous activation command and
    its completion. The group flag FO_IN_PROGRESS is the only mutual
    exclusion: every path that finds it set leaves the group untouched. */
module Failover {
  import opened Common
  import opened CtrlState
  import opened MpathGroup
  import Config

  /** `NVME_FAILOVER_RETRIES`, stored with the activation command. */
  const FAILOVER_RETRIES: nat := 3

  /** The "set active" admin command issued for a member (its
      `nvme_failover_data`). */
  datatype Activation = Activation(standby: nat, retries: nat)

  /** Result of one failover step: the group, the activation command sent
      (if any) and whether the cleanup work was re-armed. */
  datatype Step = Step(g: Group, activation: Option<Activation>, reschedule: bool)

  /** A namespace of the controller that asks for the failover: whether it
      belongs to this group and whether it is the active one. */
  datatype ChildNs = ChildNs(inGroup: bool, active: bool)

  function SetFlag(g: Group): Group
  {
    g.(root := g.root.(foInProgress := true))
  }

  function ClearFlag(g: Group): Group
  {
    g.(root := g.root.(foInProgress := false))
  }

  /** Nothing on the I/O side of the group changes. */
  predicate SameIo(g: Group, g': Group)
  {
    && g'.root.fqCong == g.root.fqCong && g'.root.waitRegistered == g.root.waitRegistered
    && g'.root.removing == g.root.removing && g'.root.isRoot == g.root.isRoot
    && g'.rootListed == g.rootListed
    && g'.poolInUse == g.poolInUse && g'.poolSize == g.poolSize
    && g'.completed == g.completed && g'.dispatched == g.dispatched
    && |g'.members| == |g.members|
  }

  /** The namespace the trigger inspects: the first active one of the
      controller, otherwise the last one walked. */
  function ChildPick(cs: seq<ChildNs>): (r: Option<ChildNs>)
    ensures r.None? <==> |cs| == 0
    ensures r.Some? ==> r.value in cs
    ensures r.Some? && (exists k :: 0 <= k < |cs| && cs[k].active) ==> r.value.active
    ensures r.Some? && (forall k :: 0 <= k < |cs| ==> !cs[k].active) ==> r.value == cs[|cs| - 1]
  {
    if |cs| == 0 then None
    else if cs[0].active || |cs| == 1 then Some(cs[0])
    else ChildPick(cs[1..])
  }

  /** The walk stops at the first active namespace: every one before it is
      passed over. */
  lemma {:induction false} ChildPickFirstActive(cs: seq<ChildNs>, k: nat)
    requires k < |cs| && cs[k].active
    requires forall j :: 0 <= j < k ==> !cs[j].active
    ensures ChildPick(cs) == Some(cs[k])
  {
    if k > 0 {
      ChildPickFirstActive(cs[1..], k - 1);
    }
  }

  predicate CanActivate(m: Member)
  {
    !m.active && m.ctrlState != Reconnecting
  }

  /** `nvme_update_active`, used while cleanup is not done: activate the
      first inactive member whose controller is not reconnecting. The
      integer is the function's return value: -1 none found, 0 the command
      could not be issued, 1 issued. `issued` is whether
      `nvme_set_ns_active` managed to send the command. */
  function UpdateActive(g: Group, issued: bool): (r: (Step, int))
    ensures var i := FindFirst(g.members, CanActivate, 0);
      && (r.1 == -1 <==> i.None?)
      && (r.1 == 1 <==> i.Some? && issued)
      && (r.0.activation.Some? <==> r.1 == 1)
      && (r.1 == 1 ==> r.0.activation.value == Activation(i.value, FAILOVER_RETRIES) && r.0.g == g)
      && (r.1 != 1 ==> r.0.g == ClearFlag(g))
      && !r.0.reschedule
  {
    match FindFirst(g.members, CanActivate, 0)
    case None => (Step(ClearFlag(g), None, false), -1)
    case Some(i) =>
      if issued then (Step(g, Some(Activation(i, FAILOVER_RETRIES)), false), 1)
      else (Step(ClearFlag(g), None, false), 0)
  }

  /** Where the member walk of `nvme_trigger_failover` stops: at the first
      point where it has seen both an active and an inactive member (the
      most recent of each), or at the end of the list. */
  datatype ScanStop = Pair(active: nat, standby: nat) | Exhausted(lastActive: Option<nat>, lastStandby: Option<nat>)

  predicate SomeActive(ms: seq<Member>)
  {
    exists k :: 0 <= k < |ms| && ms[k].active
  }

  predicate SomeInactive(ms: seq<Member>)
  {
    exists k :: 0 <= k < |ms| && !ms[k].active
  }

  function PairScan(ms: seq<Member>, i: nat, a: Option<nat>, s: Option<nat>): (r: ScanStop)
    requires i <= |ms|
    requires a.Some? ==> a.value < i && ms[a.value].active
    requires s.Some? ==> s.value < i && !ms[s.value].active
    requires a.None? ==> forall k :: 0 <= k < i ==> !ms[k].active
    requires s.None? ==> forall k :: 0 <= k < i ==> ms[k].active
    requires a.None? || s.None?
    ensures r.Pair? ==> r.active < |ms| && r.standby < |ms|
    ensures r.Pair? ==> ms[r.active].active && !ms[r.standby].active
    ensures r.Pair? <==> SomeActive(ms) && SomeInactive(ms)
    ensures r.Exhausted? ==> (r.lastActive.Some? <==> SomeActive(ms))
    ensures r.Exhausted? ==> (r.lastStandby.Some? <==> SomeInactive(ms))
    decreases |ms| - i
  {
    if i == |ms| then Exhausted(a, s)
    else
      var a' := if ms[i].active then Some(i) else a;
      var s' := if ms[i].active then s else Some(i);
      if a'.Some? && s'.Some? then Pair(a'.value, s'.value)
      else PairScan(ms, i + 1, a', s')
  }

  /** `ns_failover_interval * HZ`, an unsigned int product. */
  function Window(cfg: Config.Config): nat
  {
    (cfg.failoverInterval * cfg.hz) % U32
  }

  /** Too little time since the candidate was last deactivated. */
  predicate TooSoon(cfg: Config.Config, g: Group, standby: nat, now: nat)
    requires standby < |g.members|
  {
    JiffiesSince(now, g.members[standby].startTime) < Window(cfg)
  }

  /** The body of the walk once both an active and an inactive member were
      seen: wait if the candidate failed recently, else deactivate the old
      member and send the activation for the candidate. */
  function SwitchOrWait(cfg: Config.Config, g: Group, a: nat, s: nat, now: nat, issued: bool): (st: Step)
    requires a < |g.members| && s < |g.members|
  {
    if a == s then Step(ClearFlag(g), None, false)
    else if TooSoon(cfg, g, s, now) then Step(ClearFlag(g), None, true)
    else
      var retired := g.members[a].(active := false, startTime := now);
      var g1 := g.(members := g.members[a := retired], cleanupDone := false);
      if issued then Step(g1, Some(Activation(s, FAILOVER_RETRIES)), false)
      else Step(ClearFlag(g1), None, true)
  }

  /** Whether the trigger gets past its checks on the asking controller and
      on the group, up to (not including) the flag. */
  predicate Reaches(g: Group, isChild: bool, child: seq<ChildNs>)
  {
    && isChild
    && ChildPick(child).Some?
    && ChildPick(child).value.inGroup
    && !(!ChildPick(child).value.active && g.cleanupDone)
    && g.rootListed
  }

  /** `nvme_trigger_failover`. `isChild` is the controller's
      MPATH_CHILD flag, `child` its namespaces in list order, `now` the
      jiffies value and `issued` whether the activation command could be
      sent. */
  function TriggerFailover(cfg: Config.Config, g: Group, isChild: bool, child: seq<ChildNs>,
                           now: nat, issued: bool): (st: Step)
    ensures SameIo(g, st.g)
    ensures !Reaches(g, isChild, child) || g.root.foInProgress ==> st == Step(g, None, false)
    ensures st.activation.Some? ==> st.g.root.foInProgress
    ensures st.activation.Some? ==> st.activation.value.standby < |g.members|
                                    && !g.members[st.activation.value.standby].active
  {
    if !isChild then Step(g, None, false)
    else match ChildPick(child)
      case None => Step(g, None, false)
      case Some(c) =>
        if !c.inGroup then Step(g, None, false)
        else if !c.active && g.cleanupDone then Step(g, None, false)
        else match FirstMpathNs(g)
          case None => Step(g, None, false)
          case Some(root) =>
            if root.foInProgress then Step(g, None, false)
            else
              var g1 := SetFlag(g);
              if !g1.cleanupDone then
                var (st, ret) := UpdateActive(g1, issued);
                Step(st.g, st.activation, ret == 0)
              else if !g1.root.isRoot then Step(g1, None, false)
              else match PairScan(g1.members, 0, None, None)
                case Pair(a, s) => SwitchOrWait(cfg, g1, a, s, now, issued)
                case Exhausted(a, s) =>
                  if a.Some? && s.None? then Step(ClearFlag(g1), None, false)
                  else Step(g1, None, false)
  }

  /** The trigger reaches the member walk: past every check, flag free,
      cleanup done, a real root. */
  predicate ReachesWalk(g: Group, isChild: bool, child: seq<ChildNs>)
  {
    Reaches(g, isChild, child) && !g.root.foInProgress && g.cleanupDone && g.root.isRoot
  }

  /** Rate limit: when the candidate was deactivated less than the
      failover interval ago, the trigger clears its flag, re-arms the
      cleanup work and changes nothing else. */
  lemma RateLimitChangesNothing(cfg: Config.Config, g: Group, isChild: bool, child: seq<ChildNs>,
                                now: nat, issued: bool)
    requires ReachesWalk(g, isChild, child)
    requires PairScan(g.members, 0, None, None).Pair?
    requires TooSoon(cfg, g, PairScan(g.members, 0, None, None).standby, now)
    ensures TriggerFailover(cfg, g, isChild, child, now, issued) == Step(g, None, true)
  {
  }

  /** Switch: otherwise the old active member is deactivated and stamped,
      cleanup is marked pending and the candidate's activation is sent with
      the flag still held; if it cannot be sent the flag is dropped. */
  lemma SwitchDeactivatesOld(cfg: Config.Config, g: Group, isChild: bool, child: seq<ChildNs>,
                             now: nat, issued: bool)
    requires ReachesWalk(g, isChild, child)
    requires PairScan(g.members, 0, None, None).Pair?
    requires !TooSoon(cfg, g, PairScan(g.members, 0, None, None).standby, now)
    ensures var p := PairScan(g.members, 0, None, None);
      var st := TriggerFailover(cfg, g, isChild, child, now, issued);
      && st.g.members == g.members[p.active := g.members[p.active].(active := false, startTime := now)]
      && !st.g.cleanupDone
      && (issued ==> st.activation == Some(Activation(p.standby, FAILOVER_RETRIES)) && st.g.root.foInProgress)
      && (!issued ==> st.activation.None? && !st.g.root.foInProgress && st.reschedule)
  {
    var p := PairScan(g.members, 0, None, None);
    assert p.active != p.standby;
  }

  /** The flag can stay set: when the walk finds no active member at all
      the trigger returns holding FO_IN_PROGRESS, with nothing sent and
      nothing re-armed. */
  lemma FlagStaysSetWithoutActiveMember(cfg: Config.Config, g: Group, isChild: bool,
                                        child: seq<ChildNs>, now: nat, issued: bool)
    requires ReachesWalk(g, isChild, child)
    requires forall k :: 0 <= k < |g.members| ==> !g.members[k].active
    ensures TriggerFailover(cfg, g, isChild, child, now, issued) == Step(SetFlag(g), None, false)
  {
    assert !SomeActive(SetFlag(g).members);
  }

  /** Two triggers in a row switch at most once: the first holds the flag
      while its activation is outstanding, so the second changes nothing. */
  lemma AtMostOneSwitch(cfg: Config.Config, g: Group, isChild: bool, child: seq<ChildNs>,
                        now: nat, issued: bool, isChild2: bool, child2: seq<ChildNs>,
                        now2: nat, issued2: bool)
    requires TriggerFailover(cfg, g, isChild, child, now, issued).activation.Some?
    ensures var g1 := TriggerFailover(cfg, g, isChild, child, now, issued).g;
      TriggerFailover(cfg, g1, isChild2, child2, now2, issued2) == Step(g1, None, false)
  {
  }

  /** `nvme_ns_active_end_io`: the flag is always released; only a
      successful command makes the candidate active and marks cleanup done;
      a failed one re-arms the cleanup work and is not retried. */
  function ActiveEndIo(g: Group, act: Activation, ok: bool): (st: Step)
    requires act.standby < |g.members|
    ensures !st.g.root.foInProgress && st.activation.None? && st.reschedule == !ok
    ensures SameIo(g, st.g)
    ensures ok ==> st.g.members == g.members[act.standby := g.members[act.standby].(active := true)]
                   && st.g.cleanupDone
    ensures !ok ==> st.g == ClearFlag(g)
  {
    var g1 := if ok then
      g.(members := g.members[act.standby := g.members[act.standby].(active := true)], cleanupDone := true)
    else g;
    Step(ClearFlag(g1), None, !ok)
  }

  /** The stored retry count is never consulted. */
  lemma ActivationRetriesUnused(g: Group, s: nat, r1: nat, r2: nat, ok: bool)
    requires s < |g.members|
    ensures ActiveEndIo(g, Activation(s, r1), ok) == ActiveEndIo(g, Activation(s, r2), ok)
  {
  }

  predicate AtMostOneActive(ms: seq<Member>)
  {
    forall i, j :: 0 <= i < |ms| && 0 <= j < |ms| && ms[i].active && ms[j].active ==> i == j
  }

  predicate ExactlyOneActive(ms: seq<Member>, i: nat)
  {
    i < |ms| && ms[i].active && forall k :: 0 <= k < |ms| && k != i ==> !ms[k].active
  }

  /** A switch in a group with at most one active member leaves none
      active until the activation completes; a successful completion then
      leaves exactly the candidate active. */
  lemma SwitchThenActivateLeavesOneActive(cfg: Config.Config, g: Group, isChild: bool,
                                          child: seq<ChildNs>, now: nat)
    requires ReachesWalk(g, isChild, child) && AtMostOneActive(g.members)
    requires PairScan(g.members, 0, None, None).Pair?
    requires !TooSoon(cfg, g, PairScan(g.members, 0, None, None).standby, now)
    ensures var st := TriggerFailover(cfg, g, isChild, child, now, true);
      && st.activation.Some?
      && (forall k :: 0 <= k < |st.g.members| ==> !st.g.members[k].active)
      && ExactlyOneActive(ActiveEndIo(st.g, st.activation.value, true).g.members, st.activation.value.standby)
  {
    SwitchDeactivatesOld(cfg, g, isChild, child, now, true);
  }

  /** The scenario of a two-member group: A active, B on standby and idle
      for longer than the interval. A failure on A's controller moves the
      group to B once B's activation succeeds. */
  lemma TwoMemberScenario(cfg: Config.Config, g: Group, now: nat)
    requires |g.members| == 2 && g.members[0].active && !g.members[1].active
    requires g.rootListed && g.root.isRoot && !g.root.foInProgress && g.cleanupDone
    requires !TooSoon(cfg, g, 1, now)
    ensures var st := TriggerFailover(cfg, g, true, [ChildNs(true, true)], now, true);
      && st.activation == Some(Activation(1, FAILOVER_RETRIES))
      && var done := ActiveEndIo(st.g, st.activation.value, true).g;
         !done.members[0].active && done.members[1].active
         && !done.root.foInProgress && done.cleanupDone
  {
    assert PairScan(g.members, 0, None, None) == Pair(0, 1);
  }
}

=== FILE: geometry.dfy ===
/** Namespace and controller geometry: logical block size, disk capacity
    in 512-byte sectors, and the transfer limits given to the block layer. */
module Geometry {
  import opened Common

  /** The block size exponent from the formatted LBA format's LBADS, with
      512 bytes when Identify Namespace reported nothing. */
  function LbaShift(lbads: nat): (r: nat)
    ensures lbads != 0 ==> r == lbads
    ensures r != 0
  {
    if lbads == 0 then 9 else lbads
  }

  /** `set_capacity` in `__nvme_revalidate_disk`: zero when the format has
      metadata the block layer cannot handle (not 8-byte protection
      information and no integrity profile), otherwise NSZE blocks in
      512-byte sectors, shifted in a 64-bit `sector_t`. */
  function Capacity(nsze: nat, lbaShift: nat, ms: nat, piType: nat, integrity: bool): (r: nat)
    requires 9 <= lbaShift < 73
    ensures r < U64
    ensures ms != 0 && !(ms == 8 && piType != 0) && !integrity ==> r == 0
  {
    if ms != 0 && !(ms == 8 && piType != 0) && !integrity then 0
    else Wrap(nsze * Pow2(lbaShift - 9), U64)
  }

  /** Without overflow the capacity is the namespace size in bytes,
      counted in 512-byte sectors. */
  lemma CapacityCountsBytes(nsze: nat, lbaShift: nat, ms: nat, piType: nat, integrity: bool)
    requires 9 <= lbaShift < 73
    requires ms == 0 || (ms == 8 && piType != 0) || integrity
    requires nsze * Pow2(lbaShift - 9) < U64
    ensures Capacity(nsze, lbaShift, ms, piType, integrity) * 512 == nsze * Pow2(lbaShift)
  {
    var p := Pow2(lbaShift - 9);
    var sectors := nsze * p;
    assert Capacity(nsze, lbaShift, ms, piType, integrity) == Wrap(sectors, U64) == sectors;
    Pow2Add(9, lbaShift - 9);
    Pow2Table();
    ScaleSectors(nsze, p, Pow2(lbaShift));
  }

  lemma ScaleSectors(n: nat, p: nat, bytes: nat)
    requires bytes == 512 * p
    ensures (n * p) * 512 == n * bytes
  {
  }

  /** `min_not_zero`: the smaller of the two, ignoring a zero. */
  function MinNotZero(a: nat, b: nat): (r: nat)
    ensures a == 0 ==> r == b
    ensures b == 0 ==> r == a
    ensures a != 0 && b != 0 ==> r == a || r == b
    ensures a != 0 && b != 0 ==> r <= a && r <= b
  {
    if a == 0 then b else if b == 0 then a else Min(a, b)
  }

  const UINT_MAX: nat := 0xffff_ffff
  const USHRT_MAX: nat := 0xffff

  /** `max_hw_sectors` from `nvme_init_identify`: MDTS is a power of two
      in units of the minimum page size, converted to sectors (`1 << (mdts
      + page_shift - 9)` on `int`, stored in a `u32`), or unlimited when
      MDTS is 0; combined with any earlier limit by `min_not_zero`. */
  function MaxHwSectors(prev: nat, mdts: nat, pageShift: nat): (r: nat)
    requires prev < U32 && pageShift >= 12
    requires mdts == 0 || mdts + pageShift - 9 < 32
    ensures 0 < r < U32
    ensures prev != 0 ==> r <= prev
    ensures mdts != 0 ==> r <= Pow2(mdts + pageShift - 9)
    ensures var limit := if mdts != 0 then Pow2(mdts + pageShift - 9) else UINT_MAX;
            (r == prev || r == limit) && (prev == 0 ==> r == limit)
  {
    var limit :=
      if mdts != 0 then
        Pow2Monotone(mdts + pageShift - 9, 31);
        Pow2Table();
        Wrap(Pow2(mdts + pageShift - 9), U32)
      else UINT_MAX;
    MinNotZero(prev, limit)
  }

  /** The segment limit of `nvme_set_queue_limits`, applied only when
      `max_hw_sectors` is set: one segment per controller page plus one,
      computed in `u32`, capped at `USHRT_MAX`. */
  function MaxSegments(maxHwSectors: nat, pageSize: nat): (r: Option<nat>)
    requires maxHwSectors < U32 && pageSize >= 512
    ensures r.None? <==> maxHwSectors == 0
    ensures r.Some? ==> r.value <= USHRT_MAX
  {
    if maxHwSectors == 0 then None
    else Some(Min(Wrap(maxHwSectors / (pageSize / 512) + 1, U32), USHRT_MAX))
  }

  /** Unless capped, the segments, one controller page each, are just
      enough for the largest transfer. */
  lemma MaxSegmentsCoverTransfer(maxHwSectors: nat, pageSize: nat)
    requires 0 < maxHwSectors < U32 && pageSize >= 1024
    ensures var n := MaxSegments(maxHwSectors, pageSize).value;
            var sectorsPerPage := pageSize / 512;
            n == USHRT_MAX || (n - 1) * sectorsPerPage <= maxHwSectors < n * sectorsPerPage
  {
    var p := pageSize / 512;
    var q := maxHwSectors / p;
    FloorBounds(maxHwSectors, p);
    assert Wrap(q + 1, U32) == q + 1;
    var n := MaxSegments(maxHwSectors, pageSize).value;
    if n != USHRT_MAX {
      assert n == q + 1;
      assert (n - 1) * p == q * p;
      assert n * p == q * p + p;
    }
  }
}

=== FILE: mpath_group.dfy ===
/** The state of one multipath group: the root (aggregate) namespace with
    its flags and congestion queue, the ordered member namespaces on the
    child controllers, the context pool and what has been handed to the
    block layer so far. Every locked region of the driver is one step on
    this record. */
module MpathGroup {
  import opened Common
  import opened BlockStatus
  import opened CtrlState
  import Config

  /** `NVME_NS_STATE_*`: how a member looks to the router. */
  datatype NsState = Active | Standby | Undefined

  /** A member namespace of the group (an entry of the multipath
      controller's namespace list). */
  datatype Member = Member(
    nsId: nat,
    active: bool,       // ns->active
    removing: bool,     // NVME_NS_REMOVING
    multipath: bool,    // NVME_NS_MULTIPATH
    ctrlState: State,   // state of the member's own controller
    startTime: nat      // jiffies of the member's last deactivation
  )

  /** `get_ns_state`. */
  function GetNsState(m: Member): (s: NsState)
    ensures s == Active <==> m.active && m.ctrlState == Live
    ensures s == Standby <==> !m.active && m.ctrlState == Live
    ensures s == Undefined <==> m.ctrlState != Live
  {
    if m.active && m.ctrlState == Live then Active
    else if !m.active && m.ctrlState == Live then Standby
    else Undefined
  }

  /** Index of the first member from `i` on that satisfies `p`. */
  function FindFirst(ms: seq<Member>, p: Member -> bool, i: nat): (r: Option<nat>)
    requires i <= |ms|
    ensures r.Some? ==> i <= r.value < |ms| && p(ms[r.value])
    ensures r.Some? ==> forall k :: i <= k < r.value ==> !p(ms[k])
    ensures r.None? ==> forall k :: i <= k < |ms| ==> !p(ms[k])
    decreases |ms| - i
  {
    if i == |ms| then None
    else if p(ms[i]) then Some(i)
    else FindFirst(ms, p, i + 1)
  }

  predicate ActiveMultipath(m: Member)
  {
    GetNsState(m) == Active && m.multipath
  }

  /** `get_ns_active`: the first member that is active on a live
      controller and flagged multipath. */
  function GetNsActive(ms: seq<Member>): (r: Option<nat>)
    ensures r.Some? ==> r.value < |ms| && ms[r.value].active && ms[r.value].multipath
                        && ms[r.value].ctrlState == Live
    ensures r.Some? ==> forall k :: 0 <= k < r.value ==> !ActiveMultipath(ms[k])
    ensures r.None? <==> forall k :: 0 <= k < |ms| ==> !ActiveMultipath(ms[k])
  {
    FindFirst(ms, ActiveMultipath, 0)
  }

  /** A bio as the submitter built it: identity, its completion callback,
      that callback's private data and the device it targets. */
  datatype Bio = Bio(id: nat, endIo: nat, private: nat, bdev: nat)

  /** `struct nvme_mpath_priv`: the pool object that saves the submitter's
      fields while the bio travels below the root. */
  datatype Ctx = Ctx(
    bio: Bio,           // the saved bdev/end_io/private, as submitted
    nrRetries: nat,     // congestion-queue retries left
    startTime: nat,     // jiffies when routed
    target: nat         // index of the member the bio was sent to
  )

  /** The submitter's callback invoked with its own fields restored. */
  datatype Completion = Completion(bio: Bio, status: BlkStatus)

  /** A bio passed to `generic_make_request` for a member's queue. */
  datatype Dispatch = Dispatch(ctx: Ctx, member: nat)

  /** The root namespace of the group. */
  datatype Root = Root(
    isRoot: bool,          // NVME_NS_ROOT
    removing: bool,        // NVME_NS_REMOVING
    foInProgress: bool,    // NVME_NS_FO_IN_PROGRESS
    fqCong: seq<Ctx>,      // the congestion queue
    waitRegistered: bool   // fq_cong_wait is on the fq_full wait queue
  )

  datatype Group = Group(
    root: Root,
    rootListed: bool,      // the root is on the controller's mpath_namespace list
    cleanupDone: bool,     // mpath_ctrl->cleanup_done
    members: seq<Member>,
    poolInUse: nat,        // contexts currently taken from mpath_req_pool
    poolSize: nat,
    completed: seq<Completion>,
    dispatched: seq<Dispatch>
  )

  /** The lookup of the first multipath namespace of the controller; the
      list may be empty. */
  function FirstMpathNs(g: Group): (r: Option<Root>)
    ensures r.Some? <==> g.rootListed
    ensures r.Some? ==> r.value == g.root
  {
    if g.rootListed then Some(g.root) else None
  }

  /** What every reachable group satisfies: the wait entry is registered
      exactly while bios are queued, each queued context holds a pool
      object, the pool is not overdrawn and queued contexts have spent at
      least one congestion retry. */
  predicate Valid(cfg: Config.Config, g: Group)
  {
    && (g.root.waitRegistered <==> |g.root.fqCong| > 0)
    && |g.root.fqCong| <= g.poolInUse <= g.poolSize
    && forall k :: 0 <= k < |g.root.fqCong| ==> g.root.fqCong[k].nrRetries < cfg.maxRetries
  }

  /** The bios held by a list of records, one per record. */
  function BiosOf<T>(xs: seq<T>, bio: T -> Bio): (r: multiset<Bio>)
    ensures |r| == |xs|
  {
    if |xs| == 0 then multiset{} else multiset{bio(xs[0])} + BiosOf(xs[1..], bio)
  }

  function CtxBio(c: Ctx): Bio { c.bio }
  function DispatchBio(d: Dispatch): Bio { d.ctx.bio }
  function CompletionBio(x: Completion): Bio { x.bio }

  function QueuedBios(q: seq<Ctx>): multiset<Bio> { BiosOf(q, CtxBio) }
  function DispatchedBios(d: seq<Dispatch>): multiset<Bio> { BiosOf(d, DispatchBio) }
  function CompletedBios(c: seq<Completion>): multiset<Bio> { BiosOf(c, CompletionBio) }

  /** Every bio the group knows about, wherever it sits. */
  function AllBios(g: Group): multiset<Bio>
  {
    QueuedBios(g.root.fqCong) + DispatchedBios(g.dispatched) + CompletedBios(g.completed)
  }

  lemma {:induction false} BiosOfAppend<T>(a: seq<T>, b: seq<T>, bio: T -> Bio)
    ensures BiosOf(a + b, bio) == BiosOf(a, bio) + BiosOf(b, bio)
    decreases |a|
  {
    if |a| == 0 {
      assert a + b == b;
    } else {
      assert (a + b)[1..] == a[1..] + b;
      BiosOfAppend(a[1..], b, bio);
    }
  }
}

=== FILE: mpath_invariants.dfy ===
/** The group invariant is kept by every I/O step, and no step loses or
    duplicates a bio: each one is, at every moment, queued, dispatched or
    completed exactly as often as it was submitted. */
module MpathInvariants {
  import opened Common
  import opened BlockStatus
  import opened MpathGroup
  import opened MpathIo
  import Config

  lemma EndIoPreservesValid(cfg: Config.Config, g: Group, ctx: Ctx, status: BlkStatus)
    requires Valid(cfg, g) && g.poolInUse > |g.root.fqCong|
    requires ctx.nrRetries <= cfg.maxRetries
    ensures Valid(cfg, EndIo(g, ctx, status))
  {
    var g' := EndIo(g, ctx, status);
    if Parks(g, ctx, status) {
      assert forall k :: 0 <= k < |g'.root.fqCong| ==>
        g'.root.fqCong[k] == (g.root.fqCong + [ctx.(nrRetries := ctx.nrRetries - 1)])[k];
    }
  }

  lemma MakeRequestPreservesValid(cfg: Config.Config, g: Group, bio: Bio, now: nat)
    requires Valid(cfg, g)
    ensures Valid(cfg, MakeRequest(cfg, g, bio, now))
  {
    if !g.root.removing && g.poolInUse < g.poolSize {
      RoutePreservesValid(cfg, g.(poolInUse := g.poolInUse + 1), bio, now);
    }
  }

  lemma RoutePreservesValid(cfg: Config.Config, g: Group, bio: Bio, now: nat)
    requires Valid(cfg, g) && g.poolInUse > |g.root.fqCong|
    ensures Valid(cfg, Route(cfg, g, bio, now))
  {
    if RouteActive(g.members, g.root.foInProgress, 0).None? {
      var s := FindFirst(g.members, IsStandby, 0);
      if s.Some? {
        EndIoPreservesValid(cfg, g, PrivBio(cfg, bio, s.value, now), IoError);
      }
    }
  }

  lemma ResubmitPreservesValid(cfg: Config.Config, g: Group)
    requires Valid(cfg, g)
    ensures Valid(cfg, Resubmit(g))
  {
  }

  lemma CancelIosPreservesValid(cfg: Config.Config, g: Group)
    requires Valid(cfg, g)
    ensures Valid(cfg, CancelIos(g))
  {
  }

  /** Unlinking a removed member touches neither the queue nor the pool. */
  lemma DetachMemberPreservesValid(cfg: Config.Config, g: Group, i: nat)
    requires Valid(cfg, g) && i < |g.members|
    ensures Valid(cfg, DetachMember(g, i))
    ensures AllBios(DetachMember(g, i)) == AllBios(g)
  {
    var g1 := g.(members := g.members[..i] + g.members[i + 1..]);
    if LastMember(g, i) && !g.root.removing {
      var g2 := g1.(root := g1.root.(removing := true));
      if g2.root.isRoot {
        CancelIosPreservesValid(cfg, g2);
        CancelIosConservesBios(g2);
      }
    }
  }

  /** The cleanup work, whatever it decides, keeps the group invariant. */
  lemma FlushIoWorkPreservesValid(cfg: Config.Config, g: Group)
    requires Valid(cfg, g)
    ensures Valid(cfg, FlushIoWork(cfg, g).0)
  {
    if FlushIoWork(cfg, g).1 == Cancelled {
      CancelIosPreservesValid(cfg, g);
    }
  }

  /** The cleanup work loses no bio: failed ones move to the completions. */
  lemma FlushIoWorkConservesBios(cfg: Config.Config, g: Group)
    requires |g.root.fqCong| <= g.poolInUse
    ensures AllBios(FlushIoWork(cfg, g).0) == AllBios(g)
  {
    if FlushIoWork(cfg, g).1 == Cancelled {
      CancelIosConservesBios(g);
    }
  }

  /** One pass of the resubmission thread over groups that satisfy the
      invariant keeps it, loses no bio, and resubmits every listed root. */
  lemma KthreadPassPreservesValid(cfg: Config.Config, gs: seq<Group>)
    requires forall k :: 0 <= k < |gs| ==> Valid(cfg, gs[k])
    ensures |KthreadPass(gs)| == |gs|
    ensures forall k :: 0 <= k < |gs| ==> Valid(cfg, KthreadPass(gs)[k])
    ensures forall k :: 0 <= k < |gs| ==> AllBios(KthreadPass(gs)[k]) == AllBios(gs[k])
    ensures forall k :: 0 <= k < |gs| && gs[k].rootListed ==> KthreadPass(gs)[k] == Resubmit(gs[k])
  {
    forall k | 0 <= k < |gs|
      ensures Valid(cfg, KthreadPass(gs)[k])
      ensures AllBios(KthreadPass(gs)[k]) == AllBios(gs[k])
      ensures gs[k].rootListed ==> KthreadPass(gs)[k] == Resubmit(gs[k])
    {
      ResubmitPreservesValid(cfg, gs[k]);
      ResubmitConservesBios(gs[k]);
      if gs[k].rootListed {
        KthreadGuardIsSound(cfg, gs[k]);
      }
    }
  }

  lemma {:induction false} RedirectKeepsBios(q: seq<Ctx>, i: nat)
    ensures DispatchedBios(Redirect(q, i)) == QueuedBios(q)
    decreases |q|
  {
    if |q| > 0 {
      assert Redirect(q, i) == [Redirect(q, i)[0]] + Redirect(q[1..], i);
      BiosOfAppend([Redirect(q, i)[0]], Redirect(q[1..], i), DispatchBio);
      RedirectKeepsBios(q[1..], i);
    }
  }

  lemma {:induction false} FailAllKeepsBios(q: seq<Ctx>)
    ensures CompletedBios(FailAll(q)) == QueuedBios(q)
    decreases |q|
  {
    if |q| > 0 {
      assert FailAll(q) == [FailAll(q)[0]] + FailAll(q[1..]);
      BiosOfAppend([FailAll(q)[0]], FailAll(q[1..]), CompletionBio);
      FailAllKeepsBios(q[1..]);
    }
  }

  lemma SingletonBios(c: Ctx, d: Dispatch, x: Completion)
    ensures QueuedBios([c]) == multiset{c.bio}
    ensures DispatchedBios([d]) == multiset{d.ctx.bio}
    ensures CompletedBios([x]) == multiset{x.bio}
  {
    assert [c][1..] == [];
    assert [d][1..] == [];
    assert [x][1..] == [];
  }

  /** Draining to the active member moves every queued bio to the
      dispatched side: none is dropped, none is sent twice. */
  lemma ResubmitConservesBios(g: Group)
    ensures AllBios(Resubmit(g)) == AllBios(g)
  {
    if ResubmitGate(g) && |g.root.fqCong| > 0 {
      var i := GetNsActive(g.members).value;
      BiosOfAppend(g.dispatched, Redirect(g.root.fqCong, i), DispatchBio);
      RedirectKeepsBios(g.root.fqCong, i);
    }
  }

  /** Failing the queue completes every queued bio once: none is dropped,
      none completes twice. */
  lemma CancelIosConservesBios(g: Group)
    requires |g.root.fqCong| <= g.poolInUse
    ensures AllBios(CancelIos(g)) == AllBios(g)
  {
    if |g.root.fqCong| > 0 {
      BiosOfAppend(g.completed, FailAll(g.root.fqCong), CompletionBio);
      FailAllKeepsBios(g.root.fqCong);
    }
  }

  /** The end-of-I/O handler accounts for its bio exactly once: it is either
      queued or completed, never both. */
  lemma EndIoAccountsOnce(g: Group, ctx: Ctx, status: BlkStatus)
    requires g.poolInUse > 0
    ensures AllBios(EndIo(g, ctx, status)) == AllBios(g) + multiset{ctx.bio}
  {
    var g' := EndIo(g, ctx, status);
    if Parks(g, ctx, status) {
      QueuedOnce(g, g', ctx.(nrRetries := ctx.nrRetries - 1));
    } else {
      CompletedOnce(g, g', Completion(ctx.bio, status));
    }
  }

  /** One context appended to the queue, nothing else moved. */
  lemma QueuedOnce(g: Group, g': Group, c: Ctx)
    requires g'.root.fqCong == g.root.fqCong + [c]
    requires g'.dispatched == g.dispatched && g'.completed == g.completed
    ensures AllBios(g') == AllBios(g) + multiset{c.bio}
  {
    SingletonBios(c, Dispatch(c, 0), Completion(c.bio, Ok));
    BiosOfAppend(g.root.fqCong, [c], CtxBio);
    var Q, D, C := QueuedBios(g.root.fqCong), DispatchedBios(g.dispatched), CompletedBios(g.completed);
    assert AllBios(g') == (Q + multiset{c.bio}) + D + C;
  }

  /** One completion appended to the log, nothing else moved. */
  lemma CompletedOnce(g: Group, g': Group, x: Completion)
    requires g'.completed == g.completed + [x]
    requires g'.dispatched == g.dispatched && g'.root.fqCong == g.root.fqCong
    ensures AllBios(g') == AllBios(g) + multiset{x.bio}
  {
    var c := Ctx(x.bio, 0, 0, 0);
    SingletonBios(c, Dispatch(c, 0), x);
    BiosOfAppend(g.completed, [x], CompletionBio);
    var Q, D, C := QueuedBios(g.root.fqCong), DispatchedBios(g.dispatched), CompletedBios(g.completed);
    assert AllBios(g') == Q + D + (C + multiset{x.bio});
  }

  /** A submitted bio ends up in exactly one place: dispatched to a
      member, parked on the congestion queue, or completed. */
  lemma MakeRequestAccountsOnce(cfg: Config.Config, g: Group, bio: Bio, now: nat)
    ensures AllBios(MakeRequest(cfg, g, bio, now)) == AllBios(g) + multiset{bio}
  {
    if g.root.removing || g.poolInUse >= g.poolSize {
      assert MakeRequest(cfg, g, bio, now) == FailBio(g, bio);
      FailBioAccountsOnce(g, bio);
    } else {
      var g1 := g.(poolInUse := g.poolInUse + 1);
      assert MakeRequest(cfg, g, bio, now) == Route(cfg, g1, bio, now);
      assert g1.root == g.root && g1.dispatched == g.dispatched && g1.completed == g.completed;
      RouteAccountsOnce(cfg, g1, bio, now);
    }
  }

  lemma RouteAccountsOnce(cfg: Config.Config, g: Group, bio: Bio, now: nat)
    requires g.poolInUse > 0
    ensures AllBios(Route(cfg, g, bio, now)) == AllBios(g) + multiset{bio}
  {
    match RouteActive(g.members, g.root.foInProgress, 0)
    case Some(i) =>
      var d := Dispatch(PrivBio(cfg, bio, i, now), i);
      DispatchAccountsOnce(g, d);
    case None =>
      match FindFirst(g.members, IsStandby, 0)
      case Some(j) =>
        EndIoAccountsOnce(g, PrivBio(cfg, bio, j, now), IoError);
      case None =>
        FailBioAccountsOnce(g, bio);
  }

  lemma DispatchAccountsOnce(g: Group, d: Dispatch)
    ensures AllBios(g.(dispatched := g.dispatched + [d])) == AllBios(g) + multiset{d.ctx.bio}
  {
    SingletonBios(d.ctx, d, Completion(d.ctx.bio, Ok));
    BiosOfAppend(g.dispatched, [d], DispatchBio);
    var Q, D, C := QueuedBios(g.root.fqCong), DispatchedBios(g.dispatched), CompletedBios(g.completed);
    assert AllBios(g.(dispatched := g.dispatched + [d])) == Q + (D + multiset{d.ctx.bio}) + C;
  }

  lemma FailBioAccountsOnce(g: Group, bio: Bio)
    ensures AllBios(FailBio(g, bio)) == AllBios(g) + multiset{bio}
  {
    var x := Completion(bio, IoError);
    SingletonBios(Ctx(bio, 0, 0, 0), Dispatch(Ctx(bio, 0, 0, 0), 0), x);
    BiosOfAppend(g.completed, [x], CompletionBio);
    var Q, D, C := QueuedBios(g.root.fqCong), DispatchedBios(g.dispatched), CompletedBios(g.completed);
    assert AllBios(FailBio(g, bio)) == Q + D + (C + multiset{bio});
  }
}

=== FILE: mpath_io.dfy ===
/** I/O on the root namespace of a multipath group: routing a bio to a
    member, the end-of-I/O handler that parks failed bios on the
    congestion queue, and the two ways that queue is drained (resubmission
    to the active member, or failing every entry). */
module MpathIo {
  import opened Common
  import opened BlockStatus
  import opened MpathGroup
  import Config

  /** `nvme_mpath_priv_bio`: save the submitter's fields in a fresh
      context and give the bio the full congestion retry budget. */
  function PrivBio(cfg: Config.Config, bio: Bio, target: nat, now: nat): (c: Ctx)
    ensures c.bio == bio && c.target == target && c.startTime == now
    ensures c.nrRetries == cfg.maxRetries
  {
    Ctx(bio, cfg.maxRetries, now, target)
  }

  /** `nvme_mpath_retry_bio`: append to the congestion queue, registering
      the wait entry if it is not registered yet. */
  function RetryBio(g: Group, ctx: Ctx): (g': Group)
    ensures g'.root.fqCong == g.root.fqCong + [ctx]
    ensures g'.root.waitRegistered
    ensures g' == g.(root := g'.root)
    ensures g'.root == g.root.(fqCong := g'.root.fqCong, waitRegistered := true)
  {
    // `add_wait_queue` runs only when the entry is not registered yet; either
    // way it is registered afterwards.
    g.(root := g.root.(fqCong := g.root.fqCong + [ctx], waitRegistered := true))
  }

  /** True when `nvme_mpath_endio` keeps the bio instead of completing it. */
  predicate Parks(g: Group, ctx: Ctx, status: BlkStatus)
  {
    status != Ok && !g.root.removing && ctx.nrRetries > 0
  }

  /** `nvme_mpath_endio`: a failed bio with congestion retries left, on a
      root that is not being removed, is queued with one retry fewer;
      anything else goes back to the submitter's callback, with its own
      fields restored, and the context returns to the pool. */
  function EndIo(g: Group, ctx: Ctx, status: BlkStatus): (g': Group)
    requires g.poolInUse > 0
    ensures Parks(g, ctx, status) ==>
      && g'.root.fqCong == g.root.fqCong + [ctx.(nrRetries := ctx.nrRetries - 1)]
      && g'.completed == g.completed && g'.poolInUse == g.poolInUse
    ensures !Parks(g, ctx, status) ==>
      && g'.completed == g.completed + [Completion(ctx.bio, status)]
      && g'.poolInUse == g.poolInUse - 1 && g'.root == g.root
    ensures g'.members == g.members && g'.dispatched == g.dispatched
    ensures g'.cleanupDone == g.cleanupDone && g'.rootListed == g.rootListed
    ensures g'.root.foInProgress == g.root.foInProgress && g'.root.removing == g.root.removing
    ensures g'.poolSize == g.poolSize
  {
    if status != Ok && !g.root.removing && ctx.nrRetries > 0 then
      RetryBio(g, ctx.(nrRetries := ctx.nrRetries - 1))
    else
      g.(completed := g.completed + [Completion(ctx.bio, status)], poolInUse := g.poolInUse - 1)
  }

  predicate Usable(m: Member)
  {
    !m.removing && GetNsState(m) == Active
  }

  predicate IsStandby(m: Member)
  {
    GetNsState(m) == Standby
  }

  /** The first routing loop of `nvme_mpath_make_request`: removing members
      are skipped, a failover in progress stops the walk at the first
      member that is not being removed, and the first active member wins. */
  function RouteActive(ms: seq<Member>, foInProgress: bool, i: nat): (r: Option<nat>)
    requires i <= |ms|
    ensures r == (if foInProgress then None else FindFirst(ms, Usable, i))
    decreases |ms| - i
  {
    if i == |ms| then None
    else if ms[i].removing then RouteActive(ms, foInProgress, i + 1)
    else if foInProgress then None
    else if GetNsState(ms[i]) == Active then Some(i)
    else RouteActive(ms, foInProgress, i + 1)
  }

  /** The bio handed back to the submitter with an I/O error. */
  function FailBio(g: Group, bio: Bio): Group
  {
    g.(completed := g.completed + [Completion(bio, IoError)])
  }

  /** `nvme_mpath_make_request` for a bio submitted to the root. */
  function MakeRequest(cfg: Config.Config, g: Group, bio: Bio, now: nat): (g': Group)
    ensures g'.members == g.members && g'.root.foInProgress == g.root.foInProgress
    ensures g'.cleanupDone == g.cleanupDone && g'.poolSize == g.poolSize
  {
    if g.root.removing then FailBio(g, bio)
    else if g.poolInUse >= g.poolSize then FailBio(g, bio)
    else Route(cfg, g.(poolInUse := g.poolInUse + 1), bio, now)
  }

  /** The part of `nvme_mpath_make_request` after a context was taken from
      the pool: the two walks over the members. */
  function Route(cfg: Config.Config, g: Group, bio: Bio, now: nat): (g': Group)
    requires g.poolInUse > 0
    ensures g'.members == g.members && g'.root.foInProgress == g.root.foInProgress
    ensures g'.cleanupDone == g.cleanupDone && g'.poolSize == g.poolSize
  {
    match RouteActive(g.members, g.root.foInProgress, 0)
    case Some(i) =>
      g.(dispatched := g.dispatched + [Dispatch(PrivBio(cfg, bio, i, now), i)])
    case None =>
      match FindFirst(g.members, IsStandby, 0)
      case Some(j) =>
        // The standby path rewires the bio's callback and then takes the
        // error exit, so the error is seen by the group's own handler.
        EndIo(g, PrivBio(cfg, bio, j, now), IoError)
      case None =>
        // No device: the context taken from the pool is not given back.
        FailBio(g, bio)
  }

  /** A bio is forwarded exactly when the root is not being removed, a
      context is available, no failover is in progress and some member is
      usable; it then goes to the first usable member with the full
      congestion budget. */
  lemma MakeRequestForwards(cfg: Config.Config, g: Group, bio: Bio, now: nat)
    ensures var g' := MakeRequest(cfg, g, bio, now);
      var first := FindFirst(g.members, Usable, 0);
      (|g'.dispatched| > |g.dispatched| <==>
         !g.root.removing && g.poolInUse < g.poolSize && !g.root.foInProgress && first.Some?)
      && (|g'.dispatched| > |g.dispatched| ==>
         g'.dispatched == g.dispatched + [Dispatch(Ctx(bio, cfg.maxRetries, now, first.value), first.value)]
         && g'.completed == g.completed && g'.root == g.root && g'.poolInUse == g.poolInUse + 1)
  {
    var first := FindFirst(g.members, Usable, 0);
    if !g.root.removing && g.poolInUse < g.poolSize && g.root.foInProgress {
      assert RouteActive(g.members, true, 0).None?;
    }
  }

  /** A bio on a root being removed, with the pool exhausted, or with no
      active and no standby member, completes at once through its own
      callback with an I/O error and is queued nowhere. */
  lemma MakeRequestFailsFast(cfg: Config.Config, g: Group, bio: Bio, now: nat)
    requires || g.root.removing
             || g.poolInUse >= g.poolSize
             || (forall k :: 0 <= k < |g.members| ==> GetNsState(g.members[k]) == Undefined)
    ensures MakeRequest(cfg, g, bio, now).completed == g.completed + [Completion(bio, IoError)]
    ensures MakeRequest(cfg, g, bio, now).root == g.root
    ensures MakeRequest(cfg, g, bio, now).dispatched == g.dispatched
  {
  }

  /** The "no devices" exit keeps the context it took from the pool: the
      pool count rises by one although the bio is already completed and
      no queued or dispatched context refers to it. */
  lemma MakeRequestLeaksContext(cfg: Config.Config, g: Group, bio: Bio, now: nat)
    requires !g.root.removing && g.poolInUse < g.poolSize
    requires forall k :: 0 <= k < |g.members| ==> GetNsState(g.members[k]) == Undefined
    ensures MakeRequest(cfg, g, bio, now).poolInUse == g.poolInUse + 1
  {
  }

  /** When no member can take the bio but one is on standby, the bio is not
      failed: its rewired callback re-enters the end-of-I/O handler, which
      parks it on the congestion queue with one retry spent. */
  lemma StandbyPathParksBio(cfg: Config.Config, g: Group, bio: Bio, now: nat)
    requires !g.root.removing && g.poolInUse < g.poolSize && cfg.maxRetries > 0
    requires FindFirst(g.members, Usable, 0).None? || g.root.foInProgress
    requires FindFirst(g.members, IsStandby, 0).Some?
    ensures var j := FindFirst(g.members, IsStandby, 0).value;
      && MakeRequest(cfg, g, bio, now).root.fqCong
           == g.root.fqCong + [Ctx(bio, cfg.maxRetries - 1, now, j)]
      && MakeRequest(cfg, g, bio, now).root.waitRegistered
      && MakeRequest(cfg, g, bio, now).completed == g.completed
      && MakeRequest(cfg, g, bio, now).poolInUse == g.poolInUse + 1
  {
  }

  /** The gate of `nvme_mpath_resubmit_bios`. */
  predicate ResubmitGate(g: Group)
  {
    && !g.root.foInProgress
    && |g.members| > 0
    && GetNsActive(g.members).Some?
    && !g.members[GetNsActive(g.members).value].removing
    && g.cleanupDone
    && !g.root.removing
  }

  /** Every drained context re-aimed at member `i`, in queue order. */
  function Redirect(q: seq<Ctx>, i: nat): (d: seq<Dispatch>)
    ensures |d| == |q|
    ensures forall k :: 0 <= k < |q| ==> d[k].ctx.bio == q[k].bio && d[k].member == i
    ensures forall k :: 0 <= k < |q| ==> d[k].ctx.nrRetries == q[k].nrRetries
  {
    seq(|q|, k requires 0 <= k < |q| => Dispatch(q[k].(target := i), i))
  }

  /** `nvme_mpath_resubmit_bios`: when no failover is in progress, an
      active multipath member exists, neither it nor the root is being
      removed and cleanup is done, the whole queue is taken at once and
      every bio is sent to that member in order. */
  function Resubmit(g: Group): (g': Group)
    ensures !ResubmitGate(g) || |g.root.fqCong| == 0 ==> g' == g
    ensures ResubmitGate(g) && |g.root.fqCong| > 0 ==>
      && g'.root.fqCong == [] && !g'.root.waitRegistered
      && g'.dispatched == g.dispatched + Redirect(g.root.fqCong, GetNsActive(g.members).value)
      && g'.completed == g.completed && g'.poolInUse == g.poolInUse
    ensures g'.members == g.members && g'.root.foInProgress == g.root.foInProgress
    ensures g'.root.removing == g.root.removing && g'.cleanupDone == g.cleanupDone
    ensures g'.poolSize == g.poolSize && g'.rootListed == g.rootListed
  {
    if g.root.foInProgress then g
    else if |g.members| == 0 then g
    else match GetNsActive(g.members)
      case None => g
      case Some(i) =>
        if g.members[i].removing || !g.cleanupDone then g
        else if g.root.removing then g
        else if |g.root.fqCong| == 0 then g
        else
          var bios := g.root.fqCong;
          g.(root := g.root.(fqCong := [], waitRegistered := false),
             dispatched := g.dispatched + Redirect(bios, i))
  }

  /** Every bio failed back to its submitter, in queue order. */
  function FailAll(q: seq<Ctx>): (c: seq<Completion>)
    ensures |c| == |q|
    ensures forall k :: 0 <= k < |q| ==> c[k] == Completion(q[k].bio, IoError)
  {
    seq(|q|, k requires 0 <= k < |q| => Completion(q[k].bio, IoError))
  }

  /** `nvme_mpath_cancel_ios`: take the whole queue, complete every entry
      with an I/O error and return its context to the pool. */
  function CancelIos(g: Group): (g': Group)
    requires |g.root.fqCong| <= g.poolInUse
    ensures |g.root.fqCong| == 0 ==> g' == g
    ensures |g.root.fqCong| > 0 ==>
      && g'.root.fqCong == [] && !g'.root.waitRegistered
      && g'.completed == g.completed + FailAll(g.root.fqCong)
      && g'.poolInUse == g.poolInUse - |g.root.fqCong|
    ensures g'.dispatched == g.dispatched && g'.members == g.members
    ensures g'.root.foInProgress == g.root.foInProgress && g'.root.removing == g.root.removing
    ensures g'.root.isRoot == g.root.isRoot && g'.cleanupDone == g.cleanupDone
    ensures g'.poolSize == g.poolSize && g'.rootListed == g.rootListed
  {
    if |g.root.fqCong| == 0 then g
    else
      var bios := g.root.fqCong;
      g.(root := g.root.(fqCong := [], waitRegistered := false),
         completed := g.completed + FailAll(bios),
         poolInUse := g.poolInUse - |bios|)
  }

  /** One visit of the resubmission thread to a group: only a listed root
      whose wait entry is registered is looked at. */
  function KthreadVisit(g: Group): (g': Group)
    ensures !g.rootListed || !g.root.waitRegistered ==> g' == g
    ensures g.rootListed && g.root.waitRegistered ==> g' == Resubmit(g)
  {
    if g.rootListed && g.root.waitRegistered then Resubmit(g) else g
  }

  /** With the wait entry tracking the queue, the thread's guard only skips
      groups the resubmission would leave alone anyway. */
  lemma KthreadGuardIsSound(cfg: Config.Config, g: Group)
    requires Valid(cfg, g) && g.rootListed
    ensures KthreadVisit(g) == Resubmit(g)
  {
  }

  /** One pass of the thread over every group. */
  function KthreadPass(gs: seq<Group>): seq<Group>
  {
    seq(|gs|, k requires 0 <= k < |gs| => KthreadVisit(gs[k]))
  }

  /** What the delayed cleanup work asks for next. */
  datatype FlushOutcome = NoMpathNs | Rescheduled(delay: nat) | Cancelled | Nothing

  /** `nvme_mpath_flush_io_work`: wait while a failover is in progress
      (re-arming for `nvme_io_timeout` seconds), else fail every queued
      bio of the root. */
  function FlushIoWork(cfg: Config.Config, g: Group): (r: (Group, FlushOutcome))
    requires |g.root.fqCong| <= g.poolInUse
    ensures !g.rootListed ==> r == (g, NoMpathNs)
    ensures g.rootListed && g.root.foInProgress ==> r == (g, Rescheduled(cfg.ioTimeout * cfg.hz))
    ensures r.1 == Cancelled <==> g.rootListed && !g.root.foInProgress && g.root.isRoot
    ensures r.1 == Cancelled ==> r.0 == CancelIos(g)
    ensures r.1 != Cancelled ==> r.0 == g
  {
    match FirstMpathNs(g)
    case None => (g, NoMpathNs)
    case Some(root) =>
      if root.foInProgress then (g, Rescheduled(cfg.ioTimeout * cfg.hz))
      else if root.isRoot then (CancelIos(g), Cancelled)
      else (g, Nothing)
  }

  /** The guard of `nvme_ns_remove` on the root: a second removal does
      nothing; the first marks the root and fails its queued bios. */
  function RemoveRoot(g: Group): (g': Group)
    requires |g.root.fqCong| <= g.poolInUse
    ensures g.root.removing ==> g' == g
    ensures g'.root.removing
    ensures !g.root.removing && g.root.isRoot ==> g'.root.fqCong == []
    ensures !g.root.removing ==> g'.completed == g.completed + FailAll(g.root.fqCong) || !g.root.isRoot
    ensures g'.members == g.members && g'.dispatched == g.dispatched
    ensures g'.cleanupDone == g.cleanupDone && g'.rootListed == g.rootListed
    ensures g'.root.foInProgress == g.root.foInProgress
    ensures !g.root.removing && !g.root.isRoot ==> g' == g.(root := g.root.(removing := true))
    ensures !g.root.removing && g.root.isRoot ==> g'.poolInUse == g.poolInUse - |g.root.fqCong|
  {
    if g.root.removing then g
    else
      var g1 := g.(root := g.root.(removing := true));
      if g1.root.isRoot then CancelIos(g1) else g1
  }

  /** The guard of `nvme_ns_remove` on a member; the flag says whether the
      removal goes on to trigger a failover (the member was active). */
  function RemoveMember(g: Group, i: nat): (r: (Group, bool))
    requires i < |g.members|
    ensures g.members[i].removing ==> r == (g, false)
    ensures !g.members[i].removing ==> r.1 == g.members[i].active
    ensures |r.0.members| == |g.members| && r.0.members[i].removing
    ensures forall k :: 0 <= k < |g.members| && k != i ==> r.0.members[k] == g.members[k]
    ensures !g.members[i].removing ==> r.0 == g.(members := g.members[i := g.members[i].(removing := true)])
  {
    if g.members[i].removing then (g, false)
    else
      (g.(members := g.members[i := g.members[i].(removing := true)]), g.members[i].active)
  }

  /** After unlinking member `i`, `nvme_get_ns_for_mpath_ns` hands back the
      root itself: no member is left on the list, or the root flag is not
      set. The driver then takes the root down too. */
  predicate LastMember(g: Group, i: nat)
  {
    |g.members| == 1 || !g.root.isRoot
  }

  /** The rest of `nvme_ns_remove` for a member, after any failover it
      asked for. `nvme_del_ns_mpath_ctrl` clears the member's multipath
      flag and unlinks it from the group. If it was the last member, the
      root goes through its own guarded removal and leaves the list, and
      `cleanup_done` stays as it was. Otherwise `cleanup_done` is set. The
      cleared flag lives on the unlinked entry and is not kept. */
  function DetachMember(g: Group, i: nat): (g': Group)
    requires i < |g.members| && |g.root.fqCong| <= g.poolInUse
    ensures |g'.members| == |g.members| - 1
    ensures forall k :: 0 <= k < i ==> g'.members[k] == g.members[k]
    ensures forall k :: i <= k < |g'.members| ==> g'.members[k] == g.members[k + 1]
    ensures g'.dispatched == g.dispatched && g'.poolSize == g.poolSize
    ensures !LastMember(g, i) ==>
      && g'.cleanupDone && g'.root == g.root && g'.rootListed == g.rootListed
      && g'.completed == g.completed && g'.poolInUse == g.poolInUse
    ensures LastMember(g, i) ==> g'.cleanupDone == g.cleanupDone && g'.root.removing
    ensures LastMember(g, i) && !g.root.removing ==> !g'.rootListed
    ensures LastMember(g, i) && !g.root.removing && g.root.isRoot ==>
      g'.root.fqCong == [] && g'.completed == g.completed + FailAll(g.root.fqCong)
  {
    var g1 := g.(members := g.members[..i] + g.members[i + 1..]);
    if !LastMember(g, i) then g1.(cleanupDone := true)
    else if g1.root.removing then g1
    else RemoveRoot(g1).(rootListed := false)
  }

  /** A removal that leaves other members reopens the gates a failed
      activation closed, while the guard step alone leaves the flag as it
      was. */
  lemma DetachReopensCleanup(g: Group, i: nat)
    requires i < |g.members| && |g.root.fqCong| <= g.poolInUse
    requires !g.cleanupDone && |g.members| >= 2 && g.root.isRoot
    ensures DetachMember(g, i).cleanupDone
    ensures RemoveMember(g, i).0.cleanupDone == g.cleanupDone
  {
  }

  lemma RemoveIdempotent(g: Group, i: nat)
    requires i < |g.members| && |g.root.fqCong| <= g.poolInUse
    ensures RemoveMember(RemoveMember(g, i).0, i) == (RemoveMember(g, i).0, false)
    ensures RemoveRoot(RemoveRoot(g)) == RemoveRoot(g)
  {
  }
}

=== FILE: ns_descs.dfy ===
/** The Namespace Identification Descriptor list returned by Identify with
    CNS 03h (section 5.15.4 of the NVM Express Base Specification 1.3): a
    4096-byte buffer of descriptors, each a type byte (NIDT), a length byte
    (NIDL), two reserved bytes and NIDL bytes of identifier. */
module NsDescs {
  import opened Common

  type Byte = b: nat | b < 256

  const IDENTIFY_DATA_SIZE: nat := 4096
  const DESC_HEADER: nat := 4

  const NIDT_EUI64: nat := 1
  const NIDT_NGUID: nat := 2
  const NIDT_UUID: nat := 3
  const NIDT_EUI64_LEN: nat := 8
  const NIDT_NGUID_LEN: nat := 16
  const NIDT_UUID_LEN: nat := 16

  /** The identifiers stored in the namespace. */
  datatype NsIds = NsIds(eui64: Option<seq<Byte>>, nguid: Option<seq<Byte>>, uuid: Option<seq<Byte>>)

  predicate IdsWellSized(ids: NsIds)
  {
    && (ids.eui64.Some? ==> |ids.eui64.value| == NIDT_EUI64_LEN)
    && (ids.nguid.Some? ==> |ids.nguid.value| == NIDT_NGUID_LEN)
    && (ids.uuid.Some? ==> |ids.uuid.value| == NIDT_UUID_LEN)
  }

  /** The parse outcome, and whether the loop read past the buffer (the
      source reads `nidl` and copies identifiers without checking that they
      lie inside the 4096 bytes; the model reads such bytes as 0). */
  datatype Parse = Parse(ids: NsIds, overread: bool)

  function At(data: seq<Byte>, i: nat): Byte
  {
    if i < |data| then data[i] else 0
  }

  function Copy(data: seq<Byte>, from: nat, len: nat): (r: seq<Byte>)
    ensures |r| == len
    ensures forall k :: 0 <= k < len ==> r[k] == At(data, from + k)
    ensures from + len <= |data| ==> r == data[from..from + len]
    decreases len
  {
    if len == 0 then [] else [At(data, from)] + Copy(data, from + 1, len - 1)
  }

  /** The fixed length of a known descriptor type, 0 for unknown types. */
  function KnownLen(nidt: nat): nat
  {
    if nidt == NIDT_EUI64 then NIDT_EUI64_LEN
    else if nidt == NIDT_NGUID || nidt == NIDT_UUID then NIDT_NGUID_LEN
    else 0
  }

  function Store(ids: NsIds, nidt: nat, value: seq<Byte>): NsIds
  {
    if nidt == NIDT_EUI64 then ids.(eui64 := Some(value))
    else if nidt == NIDT_NGUID then ids.(nguid := Some(value))
    else if nidt == NIDT_UUID then ids.(uuid := Some(value))
    else ids
  }

  /** What the loop does with the descriptor whose header is at `pos`:
      stop at a zero length or at a known type with the wrong length, copy
      a known identifier, or skip an unknown type by its length. `over`
      records a read past the buffer. */
  datatype Action = Stop(over: bool) | Skip(len: nat, over: bool) | Take(nidt: nat, len: nat, over: bool)

  function StepAt(data: seq<Byte>, pos: nat): (a: Action)
    ensures a.Skip? ==> a.len >= 1
    ensures a.Take? ==> a.len == KnownLen(a.nidt) && a.len >= 1
  {
    var headerOver := pos + 1 >= |data|;
    var nidt := At(data, pos);
    var nidl := At(data, pos + 1);
    if nidl == 0 then Stop(headerOver)
    else if KnownLen(nidt) == 0 then Skip(nidl, headerOver)
    else if nidl != KnownLen(nidt) then Stop(headerOver)
    else Take(nidt, nidl, headerOver || pos + DESC_HEADER + nidl > |data|)
  }

  /** The loop of `nvme_identify_ns_descs` from offset `pos`, until a stop
      or the end of the 4096-byte buffer; each descriptor advances the
      offset by its header and its length. */
  function ParseFrom(data: seq<Byte>, pos: nat, acc: NsIds): (r: Parse)
    requires IdsWellSized(acc)
    ensures IdsWellSized(r.ids)
    ensures r.ids.eui64.None? ==> acc.eui64 == r.ids.eui64
    ensures |data| == IDENTIFY_DATA_SIZE && pos + 1 < IDENTIFY_DATA_SIZE && data[pos + 1] == 0 ==> r == Parse(acc, false)
    decreases IDENTIFY_DATA_SIZE - pos
  {
    if pos >= IDENTIFY_DATA_SIZE then Parse(acc, false)
    else
      match StepAt(data, pos)
      case Stop(over) => Parse(acc, over)
      case Skip(len, over) =>
        var rest := ParseFrom(data, pos + DESC_HEADER + len, acc);
        Parse(rest.ids, over || rest.overread)
      case Take(nidt, len, over) =>
        var rest := ParseFrom(data, pos + DESC_HEADER + len, Store(acc, nidt, Copy(data, pos + DESC_HEADER, len)));
        Parse(rest.ids, over || rest.overread)
  }

  /** `nvme_identify_ns_descs`: a failed Identify returns its status with
      nothing stored; otherwise the loop runs and the status is 0 even
      when a bogus length stops it. */
  function IdentifyNsDescs(status: int, data: seq<Byte>, ids: NsIds): (r: (int, Parse))
    requires IdsWellSized(ids)
    ensures r.0 == status
    ensures status != 0 ==> r.1 == Parse(ids, false)
    ensures IdsWellSized(r.1.ids)
  {
    if status != 0 then (status, Parse(ids, false))
    else (status, ParseFrom(data, 0, ids))
  }

  /** A descriptor as a controller lays it out. */
  datatype Desc = Desc(nidt: Byte, payload: seq<Byte>)

  predicate WellFormed(d: Desc)
  {
    1 <= |d.payload| < 256 && (KnownLen(d.nidt) != 0 ==> |d.payload| == KnownLen(d.nidt))
  }

  predicate AllWellFormed(ds: seq<Desc>)
  {
    |ds| == 0 || (WellFormed(ds[0]) && AllWellFormed(ds[1..]))
  }

  function Encode(ds: seq<Desc>): (r: seq<Byte>)
    requires AllWellFormed(ds)
  {
    if |ds| == 0 then []
    else
      assert WellFormed(ds[0]);
      [ds[0].nidt, |ds[0].payload| as Byte, 0, 0] + ds[0].payload + Encode(ds[1..])
  }

  /** What the descriptors leave in the namespace: the last of each known
      type wins. */
  function StoreAll(acc: NsIds, ds: seq<Desc>): NsIds
    decreases |ds|
  {
    if |ds| == 0 then acc
    else StoreAll(Store(acc, ds[0].nidt, ds[0].payload), ds[1..])
  }

  /** One well-formed descriptor inside the buffer: store it and go on. */
  lemma ParseStep(data: seq<Byte>, pos: nat, acc: NsIds, nidt: Byte, payload: seq<Byte>)
    requires IdsWellSized(acc) && |data| == IDENTIFY_DATA_SIZE
    requires 1 <= |payload| && (KnownLen(nidt) == 0 || |payload| == KnownLen(nidt))
    requires pos + DESC_HEADER + |payload| <= IDENTIFY_DATA_SIZE
    requires data[pos] == nidt && data[pos + 1] == |payload|
    requires data[pos + DESC_HEADER..pos + DESC_HEADER + |payload|] == payload
    ensures IdsWellSized(Store(acc, nidt, payload))
    ensures ParseFrom(data, pos, acc) == ParseFrom(data, pos + DESC_HEADER + |payload|, Store(acc, nidt, payload))
  {
    var nidl := |payload|;
    assert At(data, pos) == nidt && At(data, pos + 1) == nidl;
    if KnownLen(nidt) != 0 {
      assert StepAt(data, pos) == Take(nidt, nidl, false);
      assert Copy(data, pos + DESC_HEADER, nidl) == payload;
    } else {
      assert StepAt(data, pos) == Skip(nidl, false);
    }
  }

  /** The bytes of a non-empty encoding, split into header, payload and the
      rest of the list. */
  lemma EncodeParts(data: seq<Byte>, pos: nat, ds: seq<Desc>)
    requires |ds| > 0 && AllWellFormed(ds)
    requires pos + |Encode(ds)| <= |data|
    requires data[pos..pos + |Encode(ds)|] == Encode(ds)
    ensures var n := |ds[0].payload|;
            var next := pos + DESC_HEADER + n;
            && data[pos] == ds[0].nidt && data[pos + 1] == n
            && next + |Encode(ds[1..])| == pos + |Encode(ds)|
            && data[pos + DESC_HEADER..next] == ds[0].payload
            && data[next..next + |Encode(ds[1..])|] == Encode(ds[1..])
  {
    var h := EncodeCons(ds);
    var d, tail := ds[0], Encode(ds[1..]);
    SliceOfConcat(data, pos, h, d.payload + tail);
    SliceOfConcat(data, pos + DESC_HEADER, d.payload, tail);
    HeaderBytes(data, pos, h);
  }

  /** A non-empty encoding is the first header, its payload, then the rest. */
  lemma EncodeCons(ds: seq<Desc>) returns (h: seq<Byte>)
    requires |ds| > 0 && AllWellFormed(ds)
    ensures AllWellFormed(ds[1..])
    ensures |h| == DESC_HEADER && h[0] == ds[0].nidt && h[1] == |ds[0].payload|
    ensures Encode(ds) == h + (ds[0].payload + Encode(ds[1..]))
  {
    assert WellFormed(ds[0]);
    h := [ds[0].nidt, |ds[0].payload| as Byte, 0, 0];
  }

  lemma HeaderBytes(data: seq<Byte>, pos: nat, h: seq<Byte>)
    requires |h| == DESC_HEADER && pos + DESC_HEADER <= |data|
    requires data[pos..pos + DESC_HEADER] == h
    ensures data[pos] == h[0] && data[pos + 1] == h[1]
  {
    assert data[pos] == data[pos..pos + DESC_HEADER][0];
    assert data[pos + 1] == data[pos..pos + DESC_HEADER][1];
  }

  lemma SliceOfConcat(data: seq<Byte>, pos: nat, a: seq<Byte>, b: seq<Byte>)
    requires pos + |a| + |b| <= |data| && data[pos..pos + |a| + |b|] == a + b
    ensures data[pos..pos + |a|] == a && data[pos + |a|..pos + |a| + |b|] == b
  {
    var w := data[pos..pos + |a| + |b|];
    assert w[..|a|] == a;
    assert w[|a|..] == b;
    assert data[pos..pos + |a|] == w[..|a|];
    assert data[pos + |a|..pos + |a| + |b|] == w[|a|..];
  }

  /** The descriptors lie in the buffer one after another from `pos`,
      followed by a zero length. */
  predicate Laid(data: seq<Byte>, pos: nat, ds: seq<Desc>)
    decreases |ds|
  {
    if |ds| == 0 then pos + 1 < |data| && data[pos + 1] == 0
    else
      var n := |ds[0].payload|;
      && WellFormed(ds[0])
      && pos + DESC_HEADER + n <= |data|
      && data[pos] == ds[0].nidt && data[pos + 1] == n
      && data[pos + DESC_HEADER..pos + DESC_HEADER + n] == ds[0].payload
      && Laid(data, pos + DESC_HEADER + n, ds[1..])
  }

  /** Round trip: a list of well-formed descriptors followed by a zero
      length parses back to exactly the identifiers it carries, without
      reading past the buffer. */
  lemma ParseEncoded(data: seq<Byte>, pos: nat, ds: seq<Desc>, acc: NsIds)
    requires IdsWellSized(acc)
    requires AllWellFormed(ds)
    requires |data| == IDENTIFY_DATA_SIZE
    requires pos + |Encode(ds)| + 1 < IDENTIFY_DATA_SIZE
    requires data[pos..pos + |Encode(ds)|] == Encode(ds)
    requires data[pos + |Encode(ds)| + 1] == 0
    ensures ParseFrom(data, pos, acc) == Parse(StoreAll(acc, ds), false)
  {
    EncodedIsLaid(data, pos, ds);
    ParseLaid(data, pos, ds, acc);
  }

  lemma {:induction false} ParseLaid(data: seq<Byte>, pos: nat, ds: seq<Desc>, acc: NsIds)
    requires IdsWellSized(acc) && |data| == IDENTIFY_DATA_SIZE && Laid(data, pos, ds)
    ensures ParseFrom(data, pos, acc) == Parse(StoreAll(acc, ds), false)
    decreases |ds|
  {
    if |ds| > 0 {
      var d := ds[0];
      ParseStep(data, pos, acc, d.nidt, d.payload);
      ParseLaid(data, pos + DESC_HEADER + |d.payload|, ds[1..], Store(acc, d.nidt, d.payload));
    }
  }

  lemma {:induction false} EncodedIsLaid(data: seq<Byte>, pos: nat, ds: seq<Desc>)
    requires AllWellFormed(ds)
    requires |data| == IDENTIFY_DATA_SIZE
    requires pos + |Encode(ds)| + 1 < IDENTIFY_DATA_SIZE
    requires data[pos..pos + |Encode(ds)|] == Encode(ds)
    requires data[pos + |Encode(ds)| + 1] == 0
    ensures Laid(data, pos, ds)
    decreases |ds|
  {
    if |ds| > 0 {
      var next := EncodedStep(data, pos, ds);
      EncodedIsLaid(data, next, ds[1..]);
    }
  }

  /** The first descriptor of an encoded list sits in its header and
      payload bytes, and the rest of the list meets the round trip's
      requirements at the next offset. */
  lemma EncodedStep(data: seq<Byte>, pos: nat, ds: seq<Desc>) returns (next: nat)
    requires |ds| > 0
    requires AllWellFormed(ds)
    requires |data| == IDENTIFY_DATA_SIZE
    requires pos + |Encode(ds)| + 1 < IDENTIFY_DATA_SIZE
    requires data[pos..pos + |Encode(ds)|] == Encode(ds)
    requires data[pos + |Encode(ds)| + 1] == 0
    ensures var d, tail := ds[0], ds[1..];
            && WellFormed(d)
            && next == pos + DESC_HEADER + |d.payload|
            && data[pos] == d.nidt && data[pos + 1] == |d.payload|
            && data[pos + DESC_HEADER..next] == d.payload
            && AllWellFormed(tail)
            && next + |Encode(tail)| + 1 < IDENTIFY_DATA_SIZE
            && data[next..next + |Encode(tail)|] == Encode(tail)
            && data[next + |Encode(tail)| + 1] == 0
  {
    var d, tail := ds[0], ds[1..];
    next := pos + DESC_HEADER + |d.payload|;
    EncodeParts(data, pos, ds);
    assert WellFormed(d);
  }

  /** A known type with the wrong length ends the parse, keeping what was
      stored so far, and `nvme_identify_ns_descs` still reports success. */
  lemma BogusLengthStops(data: seq<Byte>, pos: nat, acc: NsIds)
    requires IdsWellSized(acc) && |data| == IDENTIFY_DATA_SIZE && pos + 1 < IDENTIFY_DATA_SIZE
    requires data[pos + 1] != 0 && KnownLen(data[pos]) != 0 && data[pos + 1] != KnownLen(data[pos])
    ensures ParseFrom(data, pos, acc) == Parse(acc, false)
    ensures pos == 0 ==> IdentifyNsDescs(0, data, acc) == (0, Parse(acc, false))
  {
  }

  /** An unknown type is skipped by its own length, storing nothing. */
  lemma UnknownTypeSkipped(data: seq<Byte>, pos: nat, acc: NsIds)
    requires IdsWellSized(acc) && |data| == IDENTIFY_DATA_SIZE && pos + 1 < IDENTIFY_DATA_SIZE
    requires data[pos + 1] != 0 && KnownLen(data[pos]) == 0
    ensures ParseFrom(data, pos, acc) == ParseFrom(data, pos + DESC_HEADER + data[pos + 1], acc)
  {
  }

  /** An EUI-64 descriptor starting 6 bytes before the end is copied from
      beyond the 4096-byte buffer. */
  lemma TrailingDescriptorOverreads(data: seq<Byte>)
    requires |data| == IDENTIFY_DATA_SIZE && data[4090] == NIDT_EUI64 && data[4091] == NIDT_EUI64_LEN
    ensures ParseFrom(data, 4090, NsIds(None, None, None)).overread
  {
  }
}

=== FILE: quirks.dfy ===
/** Matching a controller's identity against the core quirk table. */
module Quirks {
  import opened Common

  /** The quirk bits the modelled code consults. */
  datatype Quirk = StripeSize | IdentifyCns | NoApst | NoDeepestPs

  /** Identify Controller's vendor id, model number (40 bytes) and
      firmware revision (8 bytes), both padded with spaces. */
  datatype IdCtrl = IdCtrl(vid: nat, mn: seq<char>, fr: seq<char>)

  /** A table entry: strings that are absent match anything. */
  datatype QuirkEntry = QuirkEntry(vid: nat, mn: Option<seq<char>>, fr: Option<seq<char>>, quirks: set<Quirk>)

  const MN_LEN: nat := 40
  const FR_LEN: nat := 8

  predicate FitsIn(m: Option<seq<char>>, len: nat)
  {
    m.Some? ==> |m.value| <= len
  }

  function Spaces(n: nat): (r: seq<char>)
    ensures |r| == n && forall k :: 0 <= k < n ==> r[k] == ' '
  {
    if n == 0 then [] else Spaces(n - 1) + [' ']
  }

  /** Everything from `i` on is a space: the padding loop of
      `string_matches`. */
  function PaddedFrom(s: seq<char>, i: nat): (r: bool)
    requires i <= |s|
    ensures r <==> forall k :: i <= k < |s| ==> s[k] == ' '
    decreases |s| - i
  {
    if i == |s| then true
    else if s[i] != ' ' then false
    else PaddedFrom(s, i + 1)
  }

  /** `string_matches`: the table string must be a prefix of the identity
      string and the rest of the field must be spaces. A table string
      longer than the field is a caller error the source warns about. */
  function StringMatches(idstr: seq<char>, m: Option<seq<char>>): (r: bool)
    requires FitsIn(m, |idstr|)
    ensures r <==> m.None? || idstr == m.value + Spaces(|idstr| - |m.value|)
  {
    match m
    case None => true
    case Some(s) =>
      var rest := |idstr| - |s|;
      assert idstr == s + Spaces(rest) ==> idstr[..|s|] == s && forall k :: |s| <= k < |idstr| ==> idstr[k] == Spaces(rest)[k - |s|];
      assert idstr[..|s|] == s && PaddedFrom(idstr, |s|) ==> idstr == s + Spaces(rest);
      idstr[..|s|] == s && PaddedFrom(idstr, |s|)
  }

  /** `quirk_matches`: vendor, model and firmware all match. */
  function QuirkMatches(id: IdCtrl, q: QuirkEntry): (r: bool)
    requires |id.mn| == MN_LEN && |id.fr| == FR_LEN
    requires FitsIn(q.mn, MN_LEN) && FitsIn(q.fr, FR_LEN)
    ensures r <==> q.vid == id.vid
                   && (q.mn.None? || id.mn == q.mn.value + Spaces(MN_LEN - |q.mn.value|))
                   && (q.fr.None? || id.fr == q.fr.value + Spaces(FR_LEN - |q.fr.value|))
  {
    q.vid == id.vid && StringMatches(id.mn, q.mn) && StringMatches(id.fr, q.fr)
  }

  /** The built-in table: a Toshiba drive that dies in any APST state. */
  const CORE_QUIRKS: seq<QuirkEntry> :=
    [QuirkEntry(0x1179, Some("THNSF5256GPUK TOSHIBA"), None, {NoApst})]

  predicate TableFits(table: seq<QuirkEntry>)
  {
    forall i :: 0 <= i < |table| ==> FitsIn(table[i].mn, MN_LEN) && FitsIn(table[i].fr, FR_LEN)
  }

  /** The loop of `nvme_init_identify` that ORs in the quirks of every
      matching entry on first identification. */
  method ApplyCoreQuirks(table: seq<QuirkEntry>, id: IdCtrl, quirks: set<Quirk>) returns (r: set<Quirk>)
    requires |id.mn| == MN_LEN && |id.fr| == FR_LEN && TableFits(table)
    ensures quirks <= r
    ensures forall i :: 0 <= i < |table| && QuirkMatches(id, table[i]) ==> table[i].quirks <= r
    ensures forall q :: q in r ==>
              q in quirks || exists i :: 0 <= i < |table| && QuirkMatches(id, table[i]) && q in table[i].quirks
  {
    r := quirks;
    var i := 0;
    while i < |table|
      invariant 0 <= i <= |table|
      invariant quirks <= r
      invariant forall j :: 0 <= j < i && QuirkMatches(id, table[j]) ==> table[j].quirks <= r
      invariant forall q :: q in r ==>
                  q in quirks || exists j :: 0 <= j < i && QuirkMatches(id, table[j]) && q in table[j].quirks
    {
      if QuirkMatches(id, table[i]) {
        r := r + table[i].quirks;
      }
      i := i + 1;
    }
  }

  /** The Toshiba model string, space-padded, picks up NO_APST; the same
      model with one more character does not. */
  method ToshibaGetsNoApst() returns (hit: set<Quirk>, miss: set<Quirk>)
    ensures NoApst in hit && NoApst !in miss
  {
    var mn := "THNSF5256GPUK TOSHIBA" + Spaces(19);
    var mn2 := "THNSF5256GPUK TOSHIBAX" + Spaces(18);
    var fr := Spaces(8);
    assert QuirkMatches(IdCtrl(0x1179, mn, fr), CORE_QUIRKS[0]);
    hit := ApplyCoreQuirks(CORE_QUIRKS, IdCtrl(0x1179, mn, fr), {});
    assert mn2[21] == 'X';
    assert !QuirkMatches(IdCtrl(0x1179, mn2, fr), CORE_QUIRKS[0]) by {
      var s := "THNSF5256GPUK TOSHIBA";
      assert (s + Spaces(MN_LEN - |s|))[21] == ' ';
    }
    miss := ApplyCoreQuirks(CORE_QUIRKS, IdCtrl(0x1179, mn2, fr), {});
  }
}

=== FILE: registry.dfy ===
/** The controller's namespace registry: the list of namespace ids in list
    order, the lookup that assumes ascending order, and the scan that
    reconciles the list with what the controller reports. */
module Registry {
  import opened Common
  import opened CtrlState

  /** The namespace list, as the ids of its entries in list order. */
  type Ids = seq<nat>

  predicate StrictlySorted(l: Ids)
  {
    forall i, j :: 0 <= i < j < |l| ==> l[i] < l[j]
  }

  predicate Sorted(l: Ids)
  {
    forall i, j :: 0 <= i < j < |l| ==> l[i] <= l[j]
  }

  /** `nvme_find_get_ns`: walk the list, stop at the id or at the first
      larger id. */
  function FindGetNs(l: Ids, nsid: nat): (r: Option<nat>)
    ensures r.Some? ==> r.value < |l| && l[r.value] == nsid
    ensures r.Some? ==> forall k :: 0 <= k < r.value ==> l[k] < nsid
    ensures r.None? ==> forall k :: 0 <= k < |l| && l[k] == nsid ==>
                          exists m :: 0 <= m < k && l[m] > nsid
  {
    FindFrom(l, nsid, 0)
  }

  function FindFrom(l: Ids, nsid: nat, i: nat): (r: Option<nat>)
    requires i <= |l|
    ensures r.Some? ==> i <= r.value < |l| && l[r.value] == nsid
    ensures r.Some? ==> forall k :: i <= k < r.value ==> l[k] < nsid
    ensures r.None? ==> forall k :: i <= k < |l| && l[k] == nsid ==>
                          exists m :: i <= m < k && l[m] > nsid
    decreases |l| - i
  {
    if i == |l| then None
    else if l[i] == nsid then Some(i)
    else if l[i] > nsid then None
    else FindFrom(l, nsid, i + 1)
  }

  /** On an ascending list the early exit is exact. */
  lemma FindGetNsExactOnSortedList(l: Ids, nsid: nat)
    requires Sorted(l)
    ensures FindGetNs(l, nsid).Some? <==> nsid in l
  {
  }

  /** Out of order, the early exit misses namespaces that are present. */
  lemma FindGetNsMissesOnUnsortedList()
    ensures 3 in [5, 3] && FindGetNs([5, 3], 3).None?
  {
  }

  function RemoveAt(l: Ids, i: nat): (r: Ids)
    requires i < |l|
    ensures |r| == |l| - 1
    ensures multiset(r) == multiset(l) - multiset{l[i]}
  {
    assert l == l[..i] + [l[i]] + l[i + 1..];
    l[..i] + l[i + 1..]
  }

  /** `nvme_ns_remove` of the entry the lookup finds for `nsid`, if any. */
  function RemoveId(l: Ids, nsid: nat): (r: Ids)
    ensures multiset(r) <= multiset(l)
    ensures forall x :: x != nsid ==> multiset(r)[x] == multiset(l)[x]
  {
    match FindGetNs(l, nsid)
    case None => l
    case Some(i) => RemoveAt(l, i)
  }

  /** Dropping one entry of an ascending list keeps it ascending. */
  lemma RemoveAtKeepsOrder(l: Ids, i: nat)
    requires i < |l| && StrictlySorted(l)
    ensures StrictlySorted(RemoveAt(l, i)) && l[i] !in RemoveAt(l, i)
  {
    var r := RemoveAt(l, i);
    assert r == l[..i] + l[i + 1..];
    assert forall a :: 0 <= a < |r| ==> r[a] == l[if a < i then a else a + 1];
  }

  /** On an ascending list the removal keeps the order and leaves no copy. */
  lemma RemoveIdKeepsOrder(l: Ids, nsid: nat)
    requires StrictlySorted(l)
    ensures StrictlySorted(RemoveId(l, nsid)) && nsid !in RemoveId(l, nsid)
  {
    FindGetNsExactOnSortedList(l, nsid);
    match FindGetNs(l, nsid)
    case None =>
    case Some(i) => RemoveAtKeepsOrder(l, i);
  }

  /** `nvme_remove_invalid_namespaces`: every entry above `nsid` goes. */
  function RemoveInvalid(l: Ids, nsid: nat): (r: Ids)
    ensures forall k :: 0 <= k < |r| ==> r[k] <= nsid
    ensures multiset(r) <= multiset(l)
  {
    if |l| == 0 then []
    else
      assert l == [l[0]] + l[1..];
      if l[0] > nsid then RemoveInvalid(l[1..], nsid)
      else [l[0]] + RemoveInvalid(l[1..], nsid)
  }

  /** Nothing at or below `nsid` is removed. */
  lemma {:induction false} RemoveInvalidKeepsValid(l: Ids, nsid: nat, x: nat)
    requires x <= nsid
    ensures multiset(RemoveInvalid(l, nsid))[x] == multiset(l)[x]
    decreases |l|
  {
    if |l| > 0 {
      assert l == [l[0]] + l[1..];
      RemoveInvalidKeepsValid(l[1..], nsid, x);
    }
  }

  /** The removal keeps list order. */
  lemma {:induction false} RemoveInvalidKeepsOrder(l: Ids, nsid: nat)
    requires StrictlySorted(l)
    ensures StrictlySorted(RemoveInvalid(l, nsid))
    decreases |l|
  {
    if |l| > 0 {
      assert l == [l[0]] + l[1..];
      var rest := RemoveInvalid(l[1..], nsid);
      RemoveInvalidKeepsOrder(l[1..], nsid);
      forall k | 0 <= k < |rest| ensures l[0] < rest[k] {
        assert multiset(rest)[rest[k]] > 0;
        assert rest[k] in l[1..];
      }
    }
  }

  /** What the controller answers while being scanned: `nsList(prev)` is
      the Identify active namespace list after `prev` (None when the
      command fails), and `healthy(id)` whether a namespace with that id
      is brought up (allocated, or revalidated if already known). */
  datatype Device = Device(nsList: nat -> Option<seq<nat>>, healthy: nat -> bool)

  /** `nvme_validate_ns`: keep or drop a known namespace, add a new one. */
  function ValidateNs(dev: Device, l: Ids, nsid: nat): (r: Ids)
    ensures dev.healthy(nsid) ==> nsid in r
    ensures forall x :: x != nsid ==> multiset(r)[x] == multiset(l)[x]
  {
    match FindGetNs(l, nsid)
    case Some(i) =>
      if dev.healthy(nsid) then l
      else RemoveAt(l, i)
    case None =>
      if dev.healthy(nsid) then l + [nsid] else l
  }

  /** `nvme_scan_ns_sequential`: validate 1..nn, then drop ids above nn.
      The loop ends after nn, also for nn = 0xFFFFFFFF, where the driver's
      `unsigned` counter never gets past the bound (see `SequentialAfter`). */
  method ScanSequential(dev: Device, l: Ids, nn: nat) returns (r: Ids)
    requires nn < U32
    ensures forall k: nat :: 1 <= k <= nn && dev.healthy(k) ==> k in r
    ensures forall x :: x in r ==> x <= nn && (x in l || dev.healthy(x))
  {
    r := l;
    var i := 1;
    while i <= nn
      invariant 1 <= i <= nn + 1 || (nn == 0 && i == 1)
      invariant forall k: nat :: 1 <= k < i && dev.healthy(k) ==> k in r
      invariant forall x :: x in r ==> x in l || dev.healthy(x)
    {
      ValidateNsMembership(dev, r, i);
      r := ValidateNs(dev, r, i);
      i := i + 1;
    }
    var pre := r;
    r := RemoveInvalid(r, nn);
    RemoveInvalidMembership(pre, nn);
  }

  /** The counter of the driver's sequential loop after `k` increments:
      an `unsigned` that starts at 1 and wraps at 2^32. */
  function SequentialAfter(k: nat): (i: nat)
    ensures i < U32
  {
    if k == 0 then 1 else Wrap(SequentialAfter(k - 1) + 1, U32)
  }

  /** The counter as written is `k + 1` modulo 2^32: it passes 0xFFFFFFFF
      and comes back to 0. */
  lemma {:induction false} SequentialAfterWraps(k: nat)
    ensures SequentialAfter(k) == (k + 1) % U32
  {
    if k > 0 {
      SequentialAfterWraps(k - 1);
      ModSucc(k, U32);
    }
  }

  /** Adding one after reducing modulo `m` is reducing after adding one. */
  lemma ModSucc(k: nat, m: nat)
    requires m > 1
    ensures (k % m + 1) % m == (k + 1) % m
  {
    var q, r := k / m, k % m;
    assert k == q * m + r;
    if r < m - 1 {
      DivModUnique(q, r + 1, m);
      DivModUnique(0, r + 1, m);
    } else {
      assert k + 1 == (q + 1) * m + 0;
      DivModUnique(q + 1, 0, m);
      DivModUnique(1, 0, m);
    }
  }

  /** With nn = 0xFFFFFFFF the guard `i <= nn` holds at every step, so the
      loop as written never ends, and after 2^32 - 1 steps it validates id
      0 and then every id again. */
  lemma SequentialAsWrittenNeverEnds(k: nat)
    ensures SequentialAfter(k) <= U32 - 1
    ensures SequentialAfter(U32 - 1) == 0
  {
    SequentialAfterWraps(U32 - 1);
    DivModUnique(1, 0, U32);
  }

  lemma ValidateNsMembership(dev: Device, l: Ids, nsid: nat)
    ensures forall x :: x in ValidateNs(dev, l, nsid) ==> x in l || dev.healthy(x)
    ensures forall x :: x in l && x != nsid ==> x in ValidateNs(dev, l, nsid)
  {
    var r := ValidateNs(dev, l, nsid);
    forall x | x in r ensures x in l || dev.healthy(x) {
      if x != nsid { SameCountSameMembership(r, l, x); }
    }
    forall x | x in l && x != nsid ensures x in r {
      SameCountSameMembership(l, r, x);
    }
  }

  lemma RemoveInvalidMembership(l: Ids, nsid: nat)
    ensures forall x :: x in RemoveInvalid(l, nsid) ==> x in l
    ensures forall x: nat :: x in l && x <= nsid ==> x in RemoveInvalid(l, nsid)
  {
    var r := RemoveInvalid(l, nsid);
    forall x | x in r ensures x in l {
      assert multiset(r)[x] > 0;
    }
    forall x: nat | x in l && x <= nsid ensures x in r {
      RemoveInvalidKeepsValid(l, nsid, x);
      SameCountSameMembership(l, r, x);
    }
  }

  lemma NotInSubMultiset(a: Ids, b: Ids, x: nat)
    requires multiset(b) <= multiset(a) && x !in a
    ensures x !in b
  {
    assert multiset(a)[x] == 0;
  }

  lemma SameCountSameMembership(a: Ids, b: Ids, x: nat)
    requires x in a && multiset(b)[x] == multiset(a)[x]
    ensures x in b
  {
    assert multiset(a)[x] > 0;
  }

  /** The gap loop of `nvme_scan_ns_list`: `while (++prev < nsid)` removes
      every id strictly between the previous reported id and this one. It
      returns the list and the final `prev`. */
  function RemoveGap(l: Ids, prev: nat, nsid: nat): (r: (Ids, nat))
    ensures r.1 == if prev + 1 < nsid then nsid else prev + 1
    ensures forall x :: (x <= prev || x >= nsid) ==> multiset(r.0)[x] == multiset(l)[x]
    ensures multiset(r.0) <= multiset(l)
    decreases nsid - prev
  {
    var p := prev + 1;
    if p < nsid then RemoveGap(RemoveId(l, p), p, nsid) else (l, p)
  }

  /** On an ascending list the gap loop leaves no id strictly between the
      previous reported id and this one, and keeps the order. */
  lemma {:induction false} RemoveGapClearsGap(l: Ids, prev: nat, nsid: nat)
    requires StrictlySorted(l)
    ensures StrictlySorted(RemoveGap(l, prev, nsid).0)
    ensures forall x :: prev < x < nsid ==> x !in RemoveGap(l, prev, nsid).0
    decreases nsid - prev
  {
    var p: nat := prev + 1;
    if p < nsid {
      var l1 := RemoveId(l, p);
      RemoveIdKeepsOrder(l, p);
      RemoveGapClearsGap(l1, p, nsid);
      var r := RemoveGap(l1, p, nsid).0;
      assert RemoveGap(l, prev, nsid).0 == r;
      assert multiset(r) <= multiset(l1);
      forall x | prev < x < nsid ensures x !in r {
        if x == p {
          NotInSubMultiset(l1, r, p);
        }
      }
    }
  }

  /** Entry `j` of the 4096-byte list buffer (1024 little-endian ids). */
  function Entry(page: seq<nat>, j: nat): nat
  {
    if j < |page| then page[j] else 0
  }

  /** Inner loop over one page: returns the list, `prev`, how many entries
      were consumed and whether a zero entry ended the scan. */
  function ScanPage(dev: Device, l: Ids, page: seq<nat>, bound: nat, j: nat, prev: nat): (r: (Ids, nat, nat, bool))
    requires j <= bound
    ensures forall x :: x in r.0 ==> x in l || dev.healthy(x)
    ensures r.2 <= bound
    decreases bound - j
  {
    if j == bound then (l, prev, j, false)
    else
      var nsid := Entry(page, j);
      if nsid == 0 then (l, prev, j, true)
      else
        var l1 := ValidateNs(dev, l, nsid);
        var (l2, p2) := RemoveGap(l1, prev, nsid);
        assert forall x :: x in l2 ==> x in l1 by {
          forall x | x in l2 ensures x in l1 { assert multiset(l2)[x] > 0; }
        }
        assert forall x :: x in l1 ==> x in l || x == nsid by {
          forall x | x in l1 ensures x in l || x == nsid {
            if x != nsid { assert multiset(l1)[x] == multiset(l)[x]; }
          }
        }
        ScanPage(dev, l2, page, bound, j + 1, p2)
  }

  /** `DIV_ROUND_UP(nn, 1024)` on an `unsigned`: `nn + 1023` wraps at 2^32,
      so a count above 0xFFFFFC00 gives no pages at all. */
  function NumLists(nn: nat): (r: nat)
    requires nn < U32
    ensures nn <= U32 - 1024 ==> r * 1024 >= nn > (r - 1) * 1024
    ensures nn > U32 - 1024 ==> r == 0
  {
    var n := Wrap(nn + 1023, U32);
    FloorBounds(n, 1024);
    n / 1024
  }

  /** `nvme_scan_ns_list`: the list and the return value (0, ENOMEM when
      the page buffer cannot be allocated, or the failed Identify's status,
      modelled as 1). On success, or at a zero entry, every id above the
      last `prev` is removed. */
  function ScanNsList(dev: Device, l: Ids, nn: nat, bufferOk: bool): (r: (Ids, int))
    requires nn < U32
    ensures forall x :: x in r.0 ==> x in l || dev.healthy(x)
    ensures !bufferOk ==> r == (l, ENOMEM)
    ensures r.1 == 0 || r.1 == 1 || r.1 == ENOMEM
  {
    if !bufferOk then (l, ENOMEM)
    else ScanLists(dev, l, nn, 0, NumLists(nn), 0)
  }

  /** A count above 0xFFFFFC00 wraps the page count to zero: no Identify
      is sent, every namespace is removed and the scan reports success, so
      the sequential scan is not tried either. */
  lemma ScanNsListWrapRemovesAll(dev: Device, l: Ids, nn: nat)
    requires U32 - 1024 < nn < U32
    ensures ScanNsList(dev, l, nn, true).1 == 0
    ensures forall x :: x in ScanNsList(dev, l, nn, true).0 ==> x == 0
  {
    assert NumLists(nn) == 0;
  }

  function ScanLists(dev: Device, l: Ids, nn: nat, i: nat, numLists: nat, prev: nat): (r: (Ids, int))
    ensures forall x :: x in r.0 ==> x in l || dev.healthy(x)
    ensures r.1 == 0 || r.1 == 1
    decreases numLists - i
  {
    if i >= numLists then (RemoveInvalidFrom(l, prev), 0)
    else match dev.nsList(prev)
      case None => (l, 1)
      case Some(page) =>
        var bound := if nn < 1024 then nn else 1024;
        var (l1, p1, j, stop) := ScanPage(dev, l, page, bound, 0, prev);
        if stop then (RemoveInvalidFrom(l1, p1), 0)
        else
          var r := ScanLists(dev, l1, nn - j, i + 1, numLists, p1);
          r
  }

  function RemoveInvalidFrom(l: Ids, prev: nat): (r: Ids)
    ensures forall x :: x in r ==> x in l && x <= prev
  {
    var r := RemoveInvalid(l, prev);
    assert forall x :: x in r ==> x in l by {
      forall x | x in r ensures x in l { assert multiset(r)[x] > 0; }
    }
    r
  }

  /** `ns_cmp` as written: the difference of two 32-bit unsigned ids,
      taken modulo 2^32 and read back as a signed 32-bit int. */
  function NsCmpAsWritten(a: nat, b: nat): (r: int)
    requires a < U32 && b < U32
    ensures -0x8000_0000 <= r < 0x8000_0000
    ensures a - b < -0x8000_0000 ==> r > 0
  {
    var d := Wrap(a - b, U32);
    if d < 0x8000_0000 then d else d - U32
  }

  /** An order `ns_cmp` as written claims: `a` sorts at or before `b`. */
  predicate SortedAsWritten(l: Ids)
    requires forall k :: 0 <= k < |l| ==> l[k] < U32
  {
    forall k :: 0 <= k < |l| - 1 ==> NsCmpAsWritten(l[k], l[k + 1]) <= 0
  }

  /** Ids more than 2^31 apart compare the wrong way round, so the list
      `list_sort` leaves behind under `ns_cmp` as written puts 0x80000002
      before 1, and the lookup then misses namespace 1. */
  lemma NsCmpAsWrittenMisordersFarIds()
    ensures NsCmpAsWritten(0x8000_0002, 1) < 0 && NsCmpAsWritten(1, 0x8000_0002) > 0
    ensures SortedAsWritten([0x8000_0002, 1]) && !SortedAsWritten([1, 0x8000_0002])
    ensures 1 in [0x8000_0002, 1] && FindGetNs([0x8000_0002, 1], 1).None?
  {
    var l: Ids := [1, 0x8000_0002];
    assert NsCmpAsWritten(l[0], l[1]) > 0;
  }

  /** The comparison `ns_cmp` is meant to be: the sign of the id order. */
  function NsCmp(a: nat, b: nat): (r: int)
    ensures r < 0 <==> a < b
    ensures r == 0 <==> a == b
    ensures r > 0 <==> a > b
  {
    if a < b then -1 else if a > b then 1 else 0
  }

  /** Insertion of one id into a list sorted under `NsCmp`, after every
      entry that does not compare greater (so equal ids keep their order). */
  function Insert(x: nat, l: Ids): (r: Ids)
    requires Sorted(l)
    ensures Sorted(r)
    ensures multiset(r) == multiset(l) + multiset{x}
    ensures r[0] == x || (|l| > 0 && r[0] == l[0])
    decreases |l|
  {
    if |l| == 0 then [x]
    else if NsCmp(x, l[0]) < 0 then [x] + l
    else
      assert l == [l[0]] + l[1..];
      SortedTail(l);
      var rest := Insert(x, l[1..]);
      assert rest[0] == x || l[0] <= l[1] == rest[0];
      ConsSorted(l[0], rest);
      [l[0]] + rest
  }

  lemma SortedTail(l: Ids)
    requires |l| > 0 && Sorted(l)
    ensures Sorted(l[1..])
  {
    forall i, j | 0 <= i < j < |l| - 1 ensures l[1..][i] <= l[1..][j] {
      assert l[1..][i] == l[i + 1] && l[1..][j] == l[j + 1];
    }
  }

  lemma ConsSorted(h: nat, t: Ids)
    requires Sorted(t) && (|t| == 0 || h <= t[0])
    ensures Sorted([h] + t)
  {
    var l := [h] + t;
    forall i, j | 0 <= i < j < |l| ensures l[i] <= l[j] {
      if i > 0 { assert l[i] == t[i - 1] && l[j] == t[j - 1]; }
      else { assert l[j] == t[j - 1]; assert t[0] <= t[j - 1]; }
    }
  }

  /** `list_sort(..., ns_cmp)` with the corrected comparison. */
  function SortIds(l: Ids): (r: Ids)
    ensures Sorted(r)
    ensures multiset(r) == multiset(l)
    decreases |l|
  {
    if |l| == 0 then []
    else
      assert l == [l[0]] + l[1..];
      Insert(l[0], SortIds(l[1..]))
  }

  /** After the sort the lookup finds exactly the namespaces in the list. */
  lemma SortedListLookupIsExact(l: Ids, nsid: nat)
    ensures FindGetNs(SortIds(l), nsid).Some? <==> nsid in l
  {
    FindGetNsExactOnSortedList(SortIds(l), nsid);
    assert nsid in SortIds(l) <==> multiset(SortIds(l))[nsid] > 0;
  }

  /** `NVME_VS(1, 1, 0)`. */
  const VS_1_1_0: nat := 0x10100

  /** `nvme_scan_work`: only on a live controller whose Identify Controller
      succeeds; the list scan when the controller is version 1.1 or later
      without the Identify CNS quirk, the sequential scan when it is not
      used or fails; then the sort. */
  method ScanWork(state: State, identify: Option<nat>, vs: nat, quirkIdentifyCns: bool,
                  bufferOk: bool, dev: Device, l: Ids) returns (r: Ids)
    requires identify.Some? ==> identify.value < U32
    ensures state != Live || identify.None? ==> r == l
    ensures state == Live && identify.Some? ==>
              Sorted(r) && forall x :: x in r ==> x in l || dev.healthy(x)
    ensures state == Live && identify.Some? && (vs < VS_1_1_0 || quirkIdentifyCns) ==>
              forall k: nat :: 1 <= k <= identify.value && dev.healthy(k) ==> k in r
  {
    if state != Live || identify.None? {
      return l;
    }
    var nn := identify.value;
    var cur := l;
    var listed := false;
    if vs >= VS_1_1_0 && !quirkIdentifyCns {
      var (l1, ret) := ScanNsList(dev, l, nn, bufferOk);
      cur := l1;
      listed := ret == 0;
    }
    if !listed {
      cur := ScanSequential(dev, cur, nn);
    }
    r := SortIds(cur);
    assert forall x :: x in r ==> x in cur by {
      forall x | x in r ensures x in cur { assert multiset(r)[x] > 0; }
    }
    assert forall x :: x in cur ==> x in r by {
      forall x | x in cur ensures x in r { assert multiset(cur)[x] > 0; }
    }
  }
}

=== FILE: reservations.dfy ===
/** Persistent reservations: the block layer's `pr_ops` turned into NVMe
    Reservation Acquire, Register and Release commands (sections 6.10,
    6.11 and 6.12 of the NVM Express Base Specification 1.3, with the
    reservation types of section 8.8). */
module Reservations {
  import opened Common

  /** The block layer's `enum pr_type`, plus any other value. */
  datatype PrType =
    | WriteExclusive | ExclusiveAccess
    | WriteExclusiveRegOnly | ExclusiveAccessRegOnly
    | WriteExclusiveAllRegs | ExclusiveAccessAllRegs
    | Unknown

  /** `nvme_pr_type`: the NVMe reservation type (RTYPE), 0 for anything
      the standard does not define. */
  function NvmePrType(t: PrType): (r: nat)
    ensures r <= 6
    ensures r == 0 <==> t == Unknown
  {
    match t
    case WriteExclusive => 1
    case ExclusiveAccess => 2
    case WriteExclusiveRegOnly => 3
    case ExclusiveAccessRegOnly => 4
    case WriteExclusiveAllRegs => 5
    case ExclusiveAccessAllRegs => 6
    case Unknown => 0
  }

  /** The block-layer type a reservation type field stands for. */
  function PrTypeOf(rtype: nat): PrType
  {
    if rtype == 1 then WriteExclusive
    else if rtype == 2 then ExclusiveAccess
    else if rtype == 3 then WriteExclusiveRegOnly
    else if rtype == 4 then ExclusiveAccessRegOnly
    else if rtype == 5 then WriteExclusiveAllRegs
    else if rtype == 6 then ExclusiveAccessAllRegs
    else Unknown
  }

  /** The encoding loses nothing: distinct types get distinct codes. */
  lemma NvmePrTypeRoundTrip(t: PrType)
    ensures PrTypeOf(NvmePrType(t)) == t
  {
  }

  const RESV_REGISTER: nat := 0x0d
  const RESV_ACQUIRE: nat := 0x11
  const RESV_RELEASE: nat := 0x15

  /** `PR_FL_IGNORE_KEY`, the only flag the driver accepts. */
  const PR_FL_IGNORE_KEY: nat := 1

  /** The command `nvme_pr_command` sends: opcode, dword 10 and the two
      64-bit keys of the data buffer. */
  datatype PrCommand = PrCommand(opcode: nat, cdw10: nat, key: nat, saKey: nat)

  datatype PrResult = Unsupported(err: int) | Send(cmd: PrCommand)

  /** The fields of dword 10: the action in bits 2:0, IEKEY in bit 3, RTYPE
      in bits 15:8 and CPTPL in bits 31:30. */
  function Action(cdw10: nat): nat { cdw10 % 8 }
  function IgnoreKey(cdw10: nat): bool { (cdw10 / 8) % 2 == 1 }
  function Rtype(cdw10: nat): nat { (cdw10 / 256) % 256 }
  function Cptpl(cdw10: nat): nat { (cdw10 / 0x4000_0000) % 4 }

  /** Dword 10 assembled from its fields; the fields occupy disjoint bits,
      so the driver's ORs are sums. */
  function Dw10(action: nat, iekey: bool, rtype: nat, cptpl: nat): (r: nat)
    requires action < 8 && rtype < 256 && cptpl < 4
    ensures r < U32
  {
    cptpl * 0x4000_0000 + rtype * 256 + (if iekey then 8 else 0) + action
  }

  lemma Dw10Fields(action: nat, iekey: bool, rtype: nat, cptpl: nat)
    requires action < 8 && rtype < 256 && cptpl < 4
    ensures var d := Dw10(action, iekey, rtype, cptpl);
            Action(d) == action && IgnoreKey(d) == iekey && Rtype(d) == rtype && Cptpl(d) == cptpl
  {
    var k := if iekey then 1 else 0;
    var d := Dw10(action, iekey, rtype, cptpl);
    var hi := cptpl * 0x40_0000 + rtype;
    assert d == (hi * 32 + k) * 8 + action;
    DivModUnique(hi * 32 + k, action, 8);
    assert hi * 32 + k == (hi * 16) * 2 + k;
    DivModUnique(hi * 16, k, 2);
    assert d == hi * 256 + (k * 8 + action);
    DivModUnique(hi, k * 8 + action, 256);
    assert hi == (cptpl * 0x4000) * 256 + rtype;
    DivModUnique(cptpl * 0x4000, rtype, 256);
    assert d == cptpl * 0x4000_0000 + (rtype * 256 + k * 8 + action);
    DivModUnique(cptpl, rtype * 256 + k * 8 + action, 0x4000_0000);
    DivModUnique(0, cptpl, 4);
  }

  /** `nvme_pr_register`: register (0) a new key, or replace (2) a non-zero
      old one, always asking the controller to persist through power loss. */
  function Register(oldKey: nat, newKey: nat, flags: nat): (r: PrResult)
    ensures flags > PR_FL_IGNORE_KEY <==> r == Unsupported(EOPNOTSUPP)
    ensures r.Send? ==> r.cmd.opcode == RESV_REGISTER && r.cmd.key == oldKey && r.cmd.saKey == newKey
  {
    if flags > PR_FL_IGNORE_KEY then Unsupported(EOPNOTSUPP)
    else Send(PrCommand(RESV_REGISTER, Dw10(if oldKey != 0 then 2 else 0, flags == 1, 0, 3), oldKey, newKey))
  }

  lemma RegisterFields(oldKey: nat, newKey: nat, flags: nat)
    requires flags <= PR_FL_IGNORE_KEY
    ensures var d := Register(oldKey, newKey, flags).cmd.cdw10;
            Action(d) == (if oldKey != 0 then 2 else 0) && IgnoreKey(d) == (flags == 1)
            && Rtype(d) == 0 && Cptpl(d) == 3
  {
    Dw10Fields(if oldKey != 0 then 2 else 0, flags == 1, 0, 3);
  }

  /** `nvme_pr_reserve`: acquire (0) a reservation of the given type. */
  function Reserve(key: nat, t: PrType, flags: nat): (r: PrResult)
    ensures flags > PR_FL_IGNORE_KEY <==> r == Unsupported(EOPNOTSUPP)
    ensures r.Send? ==> r.cmd.opcode == RESV_ACQUIRE && r.cmd.key == key && r.cmd.saKey == 0
  {
    if flags > PR_FL_IGNORE_KEY then Unsupported(EOPNOTSUPP)
    else Send(PrCommand(RESV_ACQUIRE, Dw10(0, flags == 1, NvmePrType(t), 0), key, 0))
  }

  lemma ReserveFields(key: nat, t: PrType, flags: nat)
    requires flags <= PR_FL_IGNORE_KEY
    ensures var d := Reserve(key, t, flags).cmd.cdw10;
            Action(d) == 0 && IgnoreKey(d) == (flags == 1) && PrTypeOf(Rtype(d)) == t
  {
    Dw10Fields(0, flags == 1, NvmePrType(t), 0);
  }

  /** `nvme_pr_preempt` as written: `type << 8 | abort ? 2 : 1` parses as
      `((type << 8) | abort) ? 2 : 1`, so dword 10 is 2 or 1. */
  function PreemptAsWritten(oldKey: nat, newKey: nat, t: PrType, abort: bool): (r: PrCommand)
    ensures r.cdw10 == 1 || r.cdw10 == 2
  {
    var lhs := NvmePrType(t) * 256 + (if abort then 1 else 0);
    PrCommand(RESV_ACQUIRE, if lhs != 0 then 2 else 1, oldKey, newKey)
  }

  /** A plain preempt of a write-exclusive reservation goes out as
      "preempt and abort" with no reservation type. */
  lemma PreemptAsWrittenLosesType()
    ensures var d := PreemptAsWritten(1, 2, WriteExclusive, false).cdw10;
            Action(d) == 2 && Rtype(d) == 0
  {
  }

  /** `nvme_pr_preempt` as intended: preempt (1) or preempt and abort (2),
      with the reservation type in RTYPE. */
  function Preempt(oldKey: nat, newKey: nat, t: PrType, abort: bool): (r: PrCommand)
    ensures r.opcode == RESV_ACQUIRE && r.key == oldKey && r.saKey == newKey
  {
    PrCommand(RESV_ACQUIRE, Dw10(if abort then 2 else 1, false, NvmePrType(t), 0), oldKey, newKey)
  }

  lemma PreemptFields(oldKey: nat, newKey: nat, t: PrType, abort: bool)
    ensures var d := Preempt(oldKey, newKey, t, abort).cdw10;
            Action(d) == (if abort then 2 else 1) && !IgnoreKey(d) && PrTypeOf(Rtype(d)) == t
  {
    Dw10Fields(if abort then 2 else 1, false, NvmePrType(t), 0);
  }

  /** `nvme_pr_clear`: Reservation Register with action 1, ignoring the
      existing key when one is given. */
  function Clear(key: nat): (r: PrCommand)
    ensures r.opcode == RESV_REGISTER && r.key == key && r.saKey == 0
  {
    PrCommand(RESV_REGISTER, Dw10(1, key != 0, 0, 0), key, 0)
  }

  lemma ClearFields(key: nat)
    ensures var d := Clear(key).cdw10;
            Action(d) == 1 && IgnoreKey(d) == (key != 0) && Rtype(d) == 0
  {
    Dw10Fields(1, key != 0, 0, 0);
  }

  /** `nvme_pr_release` as written: `type << 8 | key ? 1 << 3 : 0` parses
      as `((type << 8) | key) ? 8 : 0`, so dword 10 is 8 or 0. */
  function ReleaseAsWritten(key: nat, t: PrType): (r: PrCommand)
    ensures r.cdw10 == 0 || r.cdw10 == 8
  {
    var lhs := NvmePrType(t) * 256 + key;
    PrCommand(RESV_RELEASE, if lhs != 0 then 8 else 0, key, 0)
  }

  /** Releasing an exclusive-access reservation with key 0 sends no type. */
  lemma ReleaseAsWrittenLosesType()
    ensures var d := ReleaseAsWritten(0, ExclusiveAccess).cdw10;
            Rtype(d) == 0 && IgnoreKey(d)
  {
  }

  /** `nvme_pr_release` as intended: release (0) with the reservation type
      in RTYPE and IEKEY set when a key is given. */
  function Release(key: nat, t: PrType): (r: PrCommand)
    ensures r.opcode == RESV_RELEASE && r.key == key && r.saKey == 0
  {
    PrCommand(RESV_RELEASE, Dw10(0, key != 0, NvmePrType(t), 0), key, 0)
  }

  lemma ReleaseFields(key: nat, t: PrType)
    ensures var d := Release(key, t).cdw10;
            Action(d) == 0 && IgnoreKey(d) == (key != 0) && PrTypeOf(Rtype(d)) == t
  {
    Dw10Fields(0, key != 0, NvmePrType(t), 0);
  }
}
